=== FILE: README.md ===
# Jet peer for the browser — a Dafny model

This project models the JavaScript peer of the Jet protocol: a JSON-RPC
style message layer over one WebSocket, through which a browser program
publishes *states* and *methods* to a Jet daemon, calls and sets other
peers' resources, and *fetches* change notifications. It models four
pieces:

- the connection engine of `src/jsonrpc.js`:
  - an outbound queue with a `willFlush` flag, so that everything queued in
    one turn leaves as a single frame;
  - a correlation table from request ids to callbacks;
  - a dispatch table from method names (resource paths, fetch ids) to
    request dispatchers;
  - `service`, `batch`, `close`, the socket hooks and inbound dispatch;
- the error mapper of `src/util.js` (`invalidParams`, `errorObject`);
- the resource façade of `peer.js`:
  - `add`, `remove`, `state`, `method`, `call` and `set`;
  - `fetch`, and the handles these return;
  - the dispatchers it installs, and the reply continuations of
    asynchronous handlers;
  - its error-table constructors;
- the legacy client `jet.js`:
  - id allocation, the pre-connect queue and its replay;
  - routing by id or by method;
  - `fetch` / `unfetch` and `setEncoding`.

`peer.js` defines its own copy of the engine. That copy does not run as
written (see "Reading of `peer.js`" below), so the façade is modelled on
the `src/jsonrpc.js` engine, which is the one that runs.

Modules, one per file:

| file | module | what |
|---|---|---|
| `js_values.dfy` | `JsValues` | JavaScript values, truthiness, `typeof`, property reads, object-key coercion, decimal ids, the JSON round trip |
| `util.dfy` | `Util` | `invalidParams` and `errorObject` |
| `errors.dfy` | `PeerErrors` | the error-table constructors of `peer.js` |
| `scheduler.dfy` | `Scheduler` | connection state, messages, frames, `queue` and `flush` |
| `handlers.dfy` | `Handlers` | the dispatchers of states, methods and fetches; reply continuations |
| `engine.dfy` | `Engine` | `service`, inbound dispatch, `batch`, `close`, the socket hooks, runs of steps |
| `peer.dfy` | `Peer` | the resource façade and its handles |
| `jet.dfy` | `Jet` | the legacy client |

How the outside world appears in the model:

- **The socket.** `send` appends a frame to an `outbox` sequence. A frame
  is either one message or an array of them (`Scheduler.Frame`). In
  `jet.js` a frame also records the codec it was encoded with.
- **Decoding.** A frame that does not decode is the input variant
  `Garbled`.
- **The socket being open** (`readyState === OPEN` in `jet.js`) is a flag.
- **User code** (setters, method handlers, fetch callbacks) is a total
  function of its arguments. It yields what the code returned or threw.
  A fetch callback's exception leaves its dispatcher and is answered like
  any other dispatcher's.
- **Callbacks and hooks.** The `success` and `error` callbacks, the hooks
  and the fetch callback append an event to an `events` sequence. The
  `onClose` and `onError` events are recorded whether or not such a hook is
  configured; the source calls only a configured one.
- **Asynchronous handlers.** The reply continuation appears as an
  `AwaitingReply(token)` event. Calling it is the separate transition
  `Handlers.Reply`.
- **Descriptor values.** The value each state or method descriptor holds
  lives in a `values` table under its path.

### Reading of `peer.js`

`peer.js` refers to several names it never defines. Each is read as the
binding it evidently means:

| as written | read as |
|---|---|
| `internal_error` (`errorObject`) | `internalError` |
| `request_dispatchers`, `remove_dispatcher` (`j.remove`) | `requestDispatchers`, `removeDispatcher` |
| `add_fetcher` (`j.fetch`, `ref.fetch`) | `addFetcher` |
| `ok` (synchronous method) | "the caught exception is undefined" |
| `errorObject(result)` in the `callAsync` and `setAsync` catch blocks | `errorObject` of the caught exception |
| `self.add`, `add_callbacks` (`j.method`) | `j.add`, `addCallbacks` |
| `messages[1]`, `message.length` (its own `flush`) | `messages[0]`, `messages.length` |

`desc.callAsync.apply(undefined, reply, params)` is different: every name
in it is defined, and it does something other than what was meant. It is
the second finding below.

### Where the model follows the code rather than the intended behaviour

- **Missing dispatcher.** An inbound request for a path with no
  dispatcher is answered with what `src/jsonrpc.js` produces: calling
  `undefined` throws a TypeError, which `errorObject` wraps into an
  Internal-error table. It is not answered with `peer.js`'s Method-not-found
  table. Only the `dispatchRequest` of `peer.js`'s own engine copy
  (`peer.js:150`) builds that table, and that copy is not modelled.
- **Error codes.** `errorObject` wraps with code -32602, not the -32603
  of `peer.js`'s `internalError`. `PeerErrors.InternalCodeDiffersFromMapper`
  records the mismatch.
- **Remove and unfetch.** Both delete their dispatcher when the answer
  arrives, whether it is a result or an error. Only a successful remove or
  unfetch is meant to unregister.
- **`ref.add()` on a handle that is already added.** It calls
  `callbacks.success()` and then issues the add again. The test "add a
  state twice fails" (`tests/peer.js:249-266`) expects the `error`
  callback instead.
- **`ref.remove()` on a handle that is not added.** It answers
  `callbacks.success()` locally. With no callbacks it throws. The test
  "remove a state twice fails" (`tests/peer.js:228-246`) expects the
  `error` callback instead.
- **`fetch` and `ref.fetch` install their dispatcher whatever the answer
  says.** This is the first finding below. The rest of the model uses the
  corrected `Peer.Fetch` and `Peer.Refetch`.
- **`callAsync` with an args array.** The handler never gets the
  arguments or the continuation. This is the second finding below. The
  rest of the model uses the corrected `Handlers.RunAsyncCall`.

## Model

| member | source | states |
|---|---|---|
| JsValues.ResponseSlotExact | src/jsonrpc.js:56-59 | an inbound response id reaches the correlation entry of request n exactly when its object-key spelling is n's decimal form, so `1` and `"1"` both reach it and `"01"` does not |
| JsValues.ResponseSlotOfId | src/jsonrpc.js:126-127 | the id a request was issued with, as a number or as its decimal string, reaches that request's entry |
| JsValues.NatToStringInjective | peer.js:350-352 | distinct counters print as distinct decimal strings, so distinct fetches get distinct ids |
| JsValues.PrefixedNotNumeric | jet.js:130 | an id with a non-digit prefix (`'f' + n`, `'__f__' + n`) never equals a request id's key |
| JsValues.IsDef | src/util.js:39-41 | `undefined` is not defined, while `null` and every truthy value are; whatever is not defined is falsy and has no properties |
| JsValues.IsArr | src/util.js:43-45 | every array is accepted, and whatever is accepted is truthy and called an object by `typeof`, though it is not a plain object |
| JsValues.JsonCopy | jet.js:133 | the JSON round trip keeps a value's kind and array lengths, keeps exactly the object properties that are not undefined, and leaves scalars unchanged |
| JsValues.JsonCopyIdempotent | jet.js:133 | copying a deep copy again changes nothing: the copy is already what the wire carries |
| Util.InvalidParams | src/util.js:10-17 | the table has exactly code -32602, message 'Invalid params' and the given data |
| Util.ErrorObject | src/util.js:19-37 | the result always has a defined code and message. An object with a defined code and message passes through unchanged. Anything else is wrapped as -32602 'Internal error'. The data holds the object's message, lineNumber and fileName, or the thrown primitive itself. |
| Util.ErrorObjectIdempotent | src/util.js:22-23 | mapping an already mapped error changes nothing |
| Util.InvalidParamsPassesThrough | src/util.js:10-23 | a handler that throws an Invalid-params table gets that table back as its error response |
| Util.WrappedAndInvalidParamsShareCode | src/util.js:31-35 | a wrapped failure and an Invalid-params error carry the same code and differ only in message |
| PeerErrors.ConstructorsAreDistinctShapedErrors | peer.js:5-67 | each constructor builds a table the mapper passes through, carrying the data; distinct kinds have distinct codes |
| PeerErrors.InvalidParamsAgree | peer.js:5-12 | `peer.js`'s Invalid-params constructor equals `src/util.js`'s |
| PeerErrors.InternalCodeDiffersFromMapper | peer.js:27-34 | Internal error uses -32603 while the mapper wraps with -32602 under the same message |
| Scheduler.Queue | src/jsonrpc.js:19-21 | queueing appends the message at the end and changes nothing else |
| Scheduler.Flush | src/jsonrpc.js:24-39 | one pending message leaves bare, several leave as one array in order, none sends nothing; afterwards nothing is pending and `willFlush` is false |
| Scheduler.FlushDeliversPending | src/jsonrpc.js:24-39 | flushing adds at most one frame, and the messages on the wire are those sent before followed by the pending ones, none lost, duplicated or reordered |
| Scheduler.FlushIdempotent | src/jsonrpc.js:31-38 | a second flush sends nothing more |
| Handlers.ReplyError | peer.js:496-502 | an error answer is queued exactly when the request carried an id |
| Handlers.ArgsOf | peer.js:400-404 | a handler's arguments are spread exactly when params is a non-empty array |
| Handlers.ArgsRoundTrip | peer.js:400-404 | the arguments determine the params they came from |
| Handlers.RunSyncSet | peer.js:475-504 | after a returning setter, the cache holds the returned object's `.value` when that is truthy, and otherwise the requested value, so a falsy override is ignored. The queue gains `{id, result: true}` when there is an id, then a `change` unless `dontNotify`. After a throwing setter the cache is unchanged and the mapped error is queued when there is an id. |
| Handlers.RunReadOnly | peer.js:555-563 | a state without a setter answers Invalid params when there is an id and changes nothing else |
| Handlers.RunAsyncSet | peer.js:506-553 | the setter gets a reply continuation. A synchronous throw is answered with the mapped error when there is an id, and nothing else is queued. |
| Handlers.CallResult | peer.js:413 | the result a method answers with is always truthy, and is the returned value when that is truthy |
| Handlers.RunSyncCall | peer.js:395-422 | a request with an id gets exactly one answer: `result \|\| {}` on success, the mapped exception otherwise. A notification gets none. |
| Handlers.RunAsyncCall | peer.js:424-463 | corrected for a non-empty args array (second finding): the handler gets the arguments and a reply continuation for the request's id. A synchronous throw is answered with the mapped error when there is an id. |
| Handlers.RunAsyncCallAsWritten | peer.js:445-462 | as written: with a non-empty args array the handler gets neither the args nor a continuation, and only a synchronous throw is answered; otherwise it acts as the corrected dispatcher |
| Handlers.ArrayCallNeverAnswered | peer.js:449-450 | as written: an args-array call with an id to a handler that does not throw leaves the connection unchanged, with no answer queued and no continuation to answer later |
| Handlers.AsyncCallAnsweredThroughReply | peer.js:425-452 | corrected: the handler's arguments give back the params, the continuation for the id is handed out, and replying through it emits exactly one answer with that id |
| Handlers.RunFetcher | peer.js:355-362 | a fetch notification reaches the fetch callback as `(path, event, value)`, or as `(changes, n)` when sorting was requested. Nothing is queued, and whatever the callback throws is let out. |
| Handlers.RunDispatcher | src/jsonrpc.js:74-78 | running a dispatcher only queues, and only a raw dispatcher or a fetch callback can let an exception out |
| Handlers.Select | peer.js:428-437 | the reply carries the result iff it is defined and no error is; otherwise the error, or the fallback message when neither is defined |
| Handlers.SelectAnswersExactlyOnce | peer.js:428-437 | every reply carries exactly one of result and error |
| Handlers.ReplyMethod | peer.js:425-443 | a method reply adds exactly the selected answer to what the peer emits, and flushes at once unless a flush is due or `dontFlush` is set |
| Handlers.QueueStateReply | peer.js:508-536 | a state reply queues the answer when there is an id. When the result is defined and `dontNotify` is not, the value (or the requested value) is cached and a `change` is queued. |
| Handlers.ReplyState | peer.js:508-540 | the same messages are emitted in that order, flushed unless a flush is due or `dontFlush` is truthy |
| Handlers.Reply | peer.js:508-522 | a reply throws exactly when it is a state reply to a request with an id whose error is `null`. Otherwise it only appends to what the peer emits. |
| Handlers.AsyncSetAnsweredThroughReply | peer.js:506-540 | an inbound `set` with an id hands the async setter a continuation for that id and the requested value. Replying with a non-null error emits exactly one answer with that id, carrying a result exactly when the reply has a result and no error, then the `change` when the reply is accepted; the cache then holds the accepted value. |
| Engine.AddRequestDispatcher | src/jsonrpc.js:44-46 | the dispatcher is installed under its key and no other key changes |
| Engine.RemoveRequestDispatcher | src/jsonrpc.js:48-50 | the key is gone and no other key changes |
| Engine.HasRequestDispatcher | src/jsonrpc.js:52-54 | a dispatcher counts as present exactly when an inbound request naming the key as its method reaches one |
| Engine.Complete | src/jsonrpc.js:128-152 | the completion installs its dispatcher on success (Assign), installs it regardless (Install) or removes it regardless (Uninstall) |
| Engine.Resolve | src/jsonrpc.js:60-70 | resolving an entry runs its completion and then the matching callback |
| Engine.Emit | src/jsonrpc.js:166-170 | a message is queued while a flush is due and sent bare otherwise |
| Engine.Service | src/jsonrpc.js:115-171 | a closed connection throws. With callbacks, params that are not an object or array throw the strict-mode TypeError of `params.timeout = …` before an id is taken. Otherwise, with callbacks, the next id is taken and the entry stored under it, with nothing run yet. Without callbacks there is no id and the completion runs at once as success. The message is queued or sent. |
| Engine.DispatchResponse | src/jsonrpc.js:56-71 | the entry for the id is removed before its callbacks run, a result wins over an error, an unknown id changes nothing, and ids stay within those handed out |
| Engine.MissingDispatcherError | src/jsonrpc.js:75-77 | the answer to a request with no dispatcher is the wrapped TypeError |
| Engine.DispatchRequest | src/jsonrpc.js:74-86 | a request with no dispatcher gets the wrapped TypeError when it has an id. Otherwise the dispatcher runs, and an exception is answered with its mapped form when there is an id. |
| Engine.DispatchSingle | src/jsonrpc.js:88-94 | a message with truthy method and params is a request, else one with a defined result or error is a response, else it is ignored |
| Engine.DispatchAll | src/jsonrpc.js:102-105 | dispatching an array's messages only adds to the pending list |
| Engine.DispatchMessage | src/jsonrpc.js:96-110 | an undecodable frame changes nothing. Otherwise everything the cycle produced leaves in at most one frame, after what was already pending. |
| Engine.RunCalls | src/jsonrpc.js:115-125 | the calls of a batch's action are issued in order. On a closed connection the first one throws and nothing changes. On an open one the run throws exactly when some call has callbacks and primitive params, with the `timeout` TypeError, and the flags are kept. |
| Engine.RunCallsQueues | src/jsonrpc.js:166-168 | while a flush is due, a run of calls only queues, in call order, with ids taken in order, up to the first call that throws the `timeout` TypeError |
| Engine.Batch | src/jsonrpc.js:173-177 | a batch fails exactly when it has a call and the connection is closed or some call throws the `timeout` TypeError. After a batch that does not fail nothing is pending and `willFlush` is false. After one that fails, `willFlush` stays set. |
| Engine.BatchSendsOneFrame | src/jsonrpc.js:173-177 | a batch whose calls all succeed sends everything it issued as one frame, after what was pending, in call order. When a call throws, nothing is sent: the calls before it stay queued and `willFlush` stays set. |
| Engine.BatchFlushesEverything | src/jsonrpc.js:173-177 | when no call of a batch throws, the batch succeeds and sends what was pending and then every call's message as one frame, or nothing when both are empty |
| Engine.Close | src/jsonrpc.js:179-183 | closing sends what was pending and marks the connection closed |
| Engine.OnClose | src/jsonrpc.js:185-190 | the socket's close marks the connection closed and runs the `onClose` hook, if one is configured |
| Engine.OnError | src/jsonrpc.js:192-197 | a socket error marks the connection closed and runs the `onError` hook, if one is configured |
| Engine.ClosedStaysClosed | src/jsonrpc.js:179-197 | no sequence of steps reopens a closed connection |
| Engine.FailFastAfterClose | src/jsonrpc.js:117-119 | after `close`, `onclose` or `onerror`, whatever happens, `service` throws |
| Engine.ResponseDeliveredOnce | src/jsonrpc.js:58-59 | a second response with the same id changes nothing |
| Engine.RequestResolvedByItsResponse | src/jsonrpc.js:124-153 | a request with callbacks is issued exactly when its params are an object or array. Its response then reaches exactly its callbacks: the completion, then success or error, and the entry is gone. |
| Peer.IsAdded | peer.js:298-300 | a handle is added exactly when an inbound request naming its path reaches a dispatcher |
| Peer.Add | peer.js:278-289 | with callbacks, the add waits with an Assign completion; without them, the dispatcher is installed at once. The add carries path and cached value and is queued while a flush is due, sent otherwise. |
| Peer.Remove | peer.js:317-325 | the remove carrying the path is queued while a flush is due and sent otherwise. With callbacks it takes the next id and waits with an Uninstall completion. Without them no id is taken and the dispatcher is gone at once. |
| Peer.HandleRemove | peer.js:291-297 | an added handle issues a remove. One not added answers `success` locally, or throws when it has no success callback. |
| Peer.HandleAdd | peer.js:301-309 | an added handle first answers `success`, and throws when it has none. A defined value replaces the cached one. The add is issued again with the cached value: with callbacks it waits with an Assign completion under the next id, and without them the dispatcher is installed at once. |
| Peer.HandleAddInstallsOnResult | peer.js:301-309 | after a re-add and its answer, the value is the one the add carried. A result leaves the handle added with its dispatcher; an error leaves it as it was. |
| Peer.StateDispatcher | peer.js:474-564 | a state gets a setter, async-setter or read-only dispatcher for its path, read-only exactly when it has no setter |
| Peer.State | peer.js:472-565 | the state's value is cached under its path and the add carrying it is issued, queued while a flush is due and sent otherwise. With callbacks it takes the next id and waits with an Assign completion, and whether the handle is added is unchanged. Without them its dispatcher is installed at once. |
| Peer.Method | peer.js:392-469 | a descriptor with neither handler throws 'invalid method desc' with its path (or '?'). Otherwise the value is cached and the add is issued with the method's dispatcher. With callbacks it waits with an Assign completion and nothing is installed yet; without them it is installed at once. |
| Peer.SyncCallAnsweredInOneFrame | peer.js:395-422 | an inbound call with an id to an installed synchronous method adds one frame: what was pending, then the method's single answer |
| Peer.MethodCallAnsweredOnce | peer.js:395-422 | once a method is added, an inbound call with an id gets exactly one answer in the cycle's single frame: `result \|\| {}` or the mapped exception |
| Peer.ValueCall | peer.js:566-582 | reading returns the cached value. Writing caches it and emits one `change`, sent at once unless a flush is due. |
| Peer.ValueReadsBackPush | peer.js:566-582 | reading a state right after writing x gives x |
| Peer.CallRemote | peer.js:327-333 | the call carries the path and always truthy args, the given ones when truthy. It is queued while a flush is due and sent otherwise. |
| Peer.SetRemote | peer.js:339-345 | the set carries path and value. It is queued while a flush is due and sent otherwise. |
| Peer.CallRemoteAnsweredByResponse | peer.js:327-333 | a remote call with callbacks on an open connection is issued, and its response reaches `success` with the result or `error` with the error; the entry is gone and the dispatch table is unchanged |
| Peer.SetRemoteAnsweredByResponse | peer.js:339-345 | the same for a remote set |
| Peer.Sorting | peer.js:351 | `params.sort` is defined for every array, for an object exactly when it has a defined `sort`, and never for a string, number or boolean |
| Peer.NormalizeFetch | peer.js:364-370 | a bare string becomes a path-contains match; anything else is kept |
| Peer.FetchParams | peer.js:364-371 | the fetch params are the normalised spec plus the fetch id when that is an object, and the spec itself otherwise |
| Peer.IssueFetch | peer.js:349-372 | undefined or null params throw before anything changes. Otherwise the counter advances even if the request throws. The request throws exactly when the connection is closed, or when there are callbacks and the spec is a number or boolean (the `timeout` TypeError). On success the returned handle has id `'__f__' + n`. The fetcher, sorted exactly when `params.sort` is defined, is installed by the given completion, or at once without callbacks. The fetch is queued while a flush is due and sent otherwise. |
| Peer.FetchAsWritten | peer.js:354-372 | as written, the fetch's completion installs the fetcher whatever the answer |
| Peer.Fetch | peer.js:354-372 | corrected: the fetch's completion installs the fetcher only on success |
| Peer.IsFetching | peer.js:382-384 | a handle is fetching exactly when notifications naming its id reach a dispatcher |
| Peer.Unfetch | peer.js:374-381 | the unfetch carries the fetch id. It removes the fetcher on completion, or at once without callbacks. |
| Peer.IssueRefetch | peer.js:385-387 | fetching again throws exactly when the connection is closed, or there are callbacks and the original params are primitive. Otherwise it sends those params, with the same id, without advancing the counter. The fetcher is installed by the given completion, or at once without callbacks. |
| Peer.RefetchAsWritten | peer.js:385-387 | as written, the refetch's completion installs the fetcher whatever the answer |
| Peer.Refetch | peer.js:385-387 | corrected: the refetch's completion installs the fetcher only on success |
| Peer.FetchIdsDistinct | peer.js:350-352 | two successive fetches that both succeed get different ids |
| Peer.AddInstallsOnSuccessOnly | peer.js:280-289 | the handle stays as it was until the answer arrives; a result installs the dispatcher, an error does not |
| Peer.RemoveUninstallsOnAnswer | peer.js:321-324 | the dispatcher stays until the answer and is gone after it, result or error |
| Peer.RemoveNotAddedNoRoundTrip | peer.js:291-297 | removing a handle that is not added queues and sends nothing and uses no id |
| Peer.FailedFetchStillFetching | peer.js:354-372 | as written, a fetch with callbacks is issued unless its spec is a number or boolean, and once issued, a daemon rejection leaves the handle fetching |
| Peer.FetchingIffFetchSucceeded | peer.js:354-372 | corrected: a fetch with callbacks is issued unless its spec is a number or boolean. Once issued and answered, the handle is fetching exactly when the answer was a result. |
| Peer.FailedRefetchStillFetching | peer.js:385-387 | as written, a refetch with callbacks is issued exactly when the original params are an object or array, and once issued, a daemon rejection leaves the handle fetching |
| Peer.RefetchingIffRefetchSucceeded | peer.js:374-387 | corrected: after an answered unfetch the handle is not fetching. A refetch with callbacks is then issued exactly when the original params are an object or array, and after its answer the handle fetches under the same id with the same dispatcher exactly when the answer was a result. |
| Peer.UnfetchAnswered | peer.js:374-381 | after an unfetch and its answer, the handle is not fetching and exactly one id was used |
| Peer.RefetchAnswered | peer.js:385-387 | corrected: from a handle that is not fetching, a refetch is issued exactly when the original params are an object or array, and it and its answer leave the handle fetching with its own dispatcher exactly when the answer was a result |
| Peer.UnfetchStopsOnAnswer | peer.js:374-384 | after the unfetch's answer, result or error, the handle is not fetching |
| Peer.FetcherForwardsNotification | peer.js:355-361 | a notification addressed to an installed fetch reaches its callback with path, event and value. When the callback throws and the notification has an id, the mapped exception is answered; otherwise nothing is queued. |
| Peer.InboundSetAnsweredInOneFrame | peer.js:475-495 | an inbound set with an id is answered in one frame holding `{id, result: true}` then the `change`, and the value is cached |
| Jet.Create | jet.js:19-40 | a new client is not open, has nothing queued or sent, no dispatchers and both counters at 0 |
| Jet.IsDefined | jet.js:41-43 | unlike `isDef`, `null` is not defined; a value is defined exactly when its properties can be read |
| Jet.Request | jet.js:79-94 | only a request with a callback takes the next id and stores the callback under it. The request is sent at once when open and queued otherwise. |
| Jet.SetRemote | jet.js:99-104 | the set carries path and value and takes an id exactly when it has a callback |
| Jet.CallRemote | jet.js:105-110 | the call carries path and args as given and takes an id exactly when it has a callback |
| Jet.OnOpen | jet.js:30-35 | the queued requests go out in order with the current codec, the queue is kept and `onopen` runs |
| Jet.Close | jet.js:149-153 | closing runs `onclose` once and leaves the client not open |
| Jet.Invoke | jet.js:117-145 | the config wrapper switches codec exactly when the error is not defined; the unfetch wrapper drops its fetch's entry; both forward to the callback, if any |
| Jet.DispatchSingle | jet.js:44-58 | a message with a defined, non-null id calls that id's entry with `(error, result)` and then deletes it; otherwise the method's entry gets the params. A missing or throwing entry is reported through `onerror`. |
| Jet.OnMessage | jet.js:59-75 | an undecodable frame is dropped; an array is dispatched element by element; nothing is ever sent |
| Jet.SetEncoding | jet.js:111-127 | throws exactly when the encoding is not msgpack or msgpack is absent; otherwise sends a config request with a wrapper callback and keeps the codec |
| Jet.FetchParams | jet.js:133-134 | undefined and null expressions throw. An object's copy carries the id and the defined properties, deep-copied. Anything else is the copy. |
| Jet.Fetch | jet.js:128-136 | the fetch takes id `'f' + n` and the counter advances even on a throw. The callback is registered under the id before the request is issued. |
| Jet.Unfetch | jet.js:137-146 | the unfetch takes the next id and stores the wrapper under it |
| Jet.QueuedInOrder | jet.js:89-93 | requests made while connecting are queued in the order made, with ids taken in order, and nothing is sent |
| Jet.SentInOrder | jet.js:89-91 | requests made while open are sent in the order made with the codec in force, and nothing is queued |
| Jet.ReplayMatchesDirectSend | jet.js:30-35 | replaying the queue on open puts on the wire exactly what the same requests would have sent on an open socket |
| Jet.ReplayIsNotCleared | jet.js:30-35 | after the queue is replayed on open, a request goes straight to the socket and the queue still holds everything queued before |
| Jet.ResponseRoutedOnce | jet.js:47-50 | a response reaches its callback once with `(error, result)`; a repeat is reported through `onerror` |
| Jet.NullIdRoutedByMethod | jet.js:41-54 | a message whose id is null is routed by method |
| Jet.ThrowingCallbackKeepsEntry | jet.js:46-57 | a callback that throws keeps its entry and the failure is reported |
| Jet.DispatchAllSplits | jet.js:68-71 | dispatching an array in two parts is dispatching it whole: elements go in order |
| Jet.SingletonArrayIsBare | jet.js:68-74 | a one-element array acts like the bare message |
| Jet.FetchKeysApart | jet.js:130 | fetch ids are distinct and no numeric response id reaches a fetch's entry |
| Jet.FetchNotificationsReachCallback | jet.js:51-54 | after a fetch, notifications named by its id reach the fetch callback with their params and the entry stays |
| Jet.UnfetchDropsEntryOnAnyAnswer | jet.js:137-146 | the unfetch's answer, result or error, drops both the fetch's entry and its own, and forwards `(err, res)` |
| Jet.ConfigAnswerSwitchesCodec | jet.js:117-126 | the codec becomes msgpack exactly when the config answer has no error (or it already was), and the callback sees the answer either way |

## Left out

- WebSocket construction, the URL and protocol, browser sniffing and the `MozWebSocket` fallback (`jet.js`, `src/jsonrpc.js`): transport set-up, outside the model.
- JSON and msgpack encoding and decoding, `binaryType`: foreign library calls. Frames are sequences of decoded messages, and an undecodable frame is an input variant.
- The `onSend`/`onReceive` hooks of `src/jsonrpc.js`: logging callbacks with no effect on the protocol state.
- The `name` handshake in `onopen` of `src/jsonrpc.js` and `peer.js`, and `config`: it is `service` with fixed arguments, which `Engine.Service` covers.
- The value `params.timeout = callbacks.timeout` copies into the outgoing params: the peer itself never reads it. The assignment's strict-mode TypeError on primitive params is modelled.
- Engine.TimeoutOnPrimitive: the TypeError is one fixed table. In the source its message names the primitive's type and value, or says `null`/`undefined`.
- Engine.MissingDispatcherError: fixes the shape of V8's TypeError. Its message is 'dispatcher is not a function', and `lineNumber` and `fileName` are undefined because V8 sets neither. Other engines word the message differently and may set those fields, so the model does not promise the table other engines build.
- Timers and the later invocation of reply continuations: replying is the separate transition `Handlers.Reply` and is not single-shot, as in the source.
- The engine copy inside `peer.js` and its own `errorObject` (`peer.js:69-77`, with truthiness tests and -32603): it does not run as written, and the façade is modelled on `src/jsonrpc.js`.
- Daemon-side behaviour (path uniqueness, fetch matching and sorting): it lives in the daemon.
- Module export boilerplate: no behaviour.
- Numbers are integers: fractional ids, and numbers whose decimal form JavaScript writes in exponent notation (1e21 and above), are not modelled.
- Keys inherited from `Object.prototype` (`toString`, `constructor`, …) are not in the tables: a message naming one reaches no dispatcher in the model.
- Decoded messages are records with the five protocol fields: an array element that is not an object (such as `null`) is not modelled.
- `Util.ErrorObject`: requires a non-null argument, because the source throws when handed `null` (`typeof null === 'object'`); `throw null` from user code is therefore outside the model (`JsValues.Thrown` excludes it).
- `Handlers.Reply`: `reply(undefined)` (reading a property of undefined) is not modelled; a reply always carries an object.
- Callbacks are records of which of `success` and `error` are present; a present but non-callable `success` is not modelled.
- The `values` table keys descriptor values by path, so two live descriptors with the same path share one cached value.
- `jet.js`'s `onerror` and `onclose` from the socket, and a throwing `onerror` callback: only `instance.close()` and the dispatch-failure report are modelled.
- Engine.DispatchMessage: the `success` and `error` callbacks are events and cannot throw. In the source a throwing callback escapes the dispatch. The rest of the frame is then not dispatched, the closing flush is skipped and `willFlush` stays set, so later calls only queue. The promise that a cycle ends with nothing pending and at most one new frame holds only for callbacks that return.
- Engine.Resolve: a callback that throws is not modelled, as above. The completion always runs before the caller's callback, and both always finish.
- Engine.Batch: the engine has no not-yet-open socket. A `batch` before the socket opens makes `wsock.send` throw, but the model records the frame as sent.
- Engine.Close: as for `Engine.Batch`, closing before the socket opens throws in the source from the flush, and the socket is not closed. The model records the frame as sent and the close as done.
- Scheduler.Callbacks: a callbacks object is an immutable record. The source wraps the caller's object in place, so a callbacks object reused for a second request stacks both completions. For example, a remove's callbacks reused for a later add delete the dispatcher once the add succeeds.
- Handlers.RunAsyncCall: the position of the continuation among the handler's arguments is not modelled. The handler's arguments and its continuation are separate. As written, the `call` branch passes `reply` first, while the test "can add and call a method with callAsync" (`tests/peer.js:378-398`) expects it last.
- Jet.OnMessage: `jet.js` tells an array frame by the jQuery global `$.isArray`. That is a foreign library call; the model takes the decoded frame's array-ness as given.
- Fetch expressions that JSON cannot represent (functions, cyclic objects): the model's values are all JSON-representable.

## Findings

| source | as written | input that shows it | evidently intended | confidence | as-written member | corrected member |
|---|---|---|---|---|---|---|
| peer.js:354-372 | `addFetcher` ignores the success flag its completion is called with, so the fetch dispatcher is installed whether the fetch succeeded or failed | `j.fetch(spec, f, {error: …})` answered with `{id, error: {...}}`: afterwards `isFetching()` is true and the dispatcher is in the table | install only on success, as `j.add`'s `assignDispatcher` does | medium, not executed | Peer.FailedFetchStillFetching | Peer.FetchingIffFetchSucceeded |
| peer.js:385-387 | `ref.fetch` passes the same completion as `j.fetch`, so fetching again installs the fetch dispatcher whether the daemon accepts or rejects it | `ref.unfetch` answered, then `ref.fetch({error: …})` answered with `{id, error: {...}}`: afterwards `isFetching()` is true | install only on success, as for the first fetch | medium, not executed | Peer.FailedRefetchStillFetching | Peer.RefetchingIffRefetchSucceeded |
| peer.js:449-450 | `desc.callAsync.apply(undefined, reply, params)` hands `apply` the continuation as its argument list. A function of two parameters with no indexed properties reads as `[undefined, undefined]`, so the handler gets neither the args nor `reply` | `j.call(path, [1, 2, false], {success: …})` to a `callAsync` handler that returns without throwing: it runs with `(undefined, undefined)` and the call is never answered. A handler that throws, as the one in `tests/peer.js:378-398` does on its first check, gets an Internal-error answer instead. | the args spread, followed by the continuation | high, not executed | Handlers.ArrayCallNeverAnswered | Handlers.AsyncCallAnsweredThroughReply |

=== FILE: engine.dfy ===
/** The connection engine of `src/jsonrpc.js`: `service` (requests and
    notifications), the correlation table, the request-dispatcher table,
    inbound frame dispatch, `batch` and closing. */
module Engine {
  import opened JsValues
  import opened Scheduler
  import Handlers
  import Util

  /** What `service` throws once the connection is closed. */
  const ClosedError: Value := Field("message", Str("Jet Websocket connection is closed"))

  /** What `params.timeout = callbacks.timeout` throws, under the strict
      mode of `src/jsonrpc.js`, when params is not an object. */
  const TimeoutOnPrimitive: Value := Field("message", Str("Cannot create property 'timeout' on a primitive"))

  /** Values a strict-mode property assignment can extend: objects and
      arrays. Assigning to `undefined` or `null` throws as well. */
  predicate Extensible(v: Value) {
    v.Obj? || v.Arr?
  }

  /** What calling a missing request dispatcher throws. */
  const NotAFunction: Value := Field("message", Str("dispatcher is not a function"))

  // ---------------------------------------------------------------------------
  // Request-dispatcher table

  function AddRequestDispatcher(c: Connection, key: string, d: Dispatcher): (c': Connection)
    ensures HasRequestDispatcher(c', key) && c'.requests[key] == d
    ensures forall k :: k != key ==> (k in c'.requests <==> k in c.requests)
    ensures c' == c.(requests := c'.requests)
  {
    c.(requests := c.requests[key := d])
  }

  function RemoveRequestDispatcher(c: Connection, key: string): (c': Connection)
    ensures !HasRequestDispatcher(c', key)
    ensures forall k :: k != key ==> (k in c'.requests <==> k in c.requests)
    ensures c' == c.(requests := c'.requests)
  {
    c.(requests := c.requests - {key})
  }

  /** `hasRequestDispatcher(id)`: the table holds only dispatchers, so an
      entry is defined exactly when there is one, and then an inbound
      request naming `key` as its method reaches it. */
  predicate HasRequestDispatcher(c: Connection, key: string): (b: bool)
    ensures b <==> ToPropertyKey(Str(key)) in c.requests
  {
    key in c.requests
  }

  // ---------------------------------------------------------------------------
  // Completions and wrapped callbacks

  /** `complete(ok)`: the façade's bookkeeping on the dispatcher table. */
  function Complete(c: Connection, comp: Completion, ok: bool): (c': Connection)
    ensures c'.events == c.events + [Completed(ok)]
    ensures c' == c.(requests := c'.requests, events := c'.events)
    ensures comp.Assign? ==> c'.requests == (if ok then c.requests[comp.key := comp.d] else c.requests)
    ensures comp.Install? ==> c'.requests == c.requests[comp.key := comp.d]
    ensures comp.Uninstall? ==> c'.requests == c.requests - {comp.key}
  {
    var requests :=
      match comp
      case Assign(key, d) => if ok then c.requests[key := d] else c.requests
      case Install(key, d) => c.requests[key := d]
      case Uninstall(key) => c.requests - {key};
    c.(requests := requests, events := c.events + [Completed(ok)])
  }

  function MaybeComplete(c: Connection, comp: Option<Completion>, ok: bool): (c': Connection)
    ensures c'.requests == CompletedTable(c.requests, comp, ok)
    ensures c'.events == c.events + (if comp.Some? then [Completed(ok)] else [])
    ensures c' == c.(requests := c'.requests, events := c'.events)
  {
    if comp.Some? then Complete(c, comp.value, ok) else c
  }

  /** The dispatcher table after an optional `complete(ok)`. */
  function CompletedTable(requests: map<string, Dispatcher>, comp: Option<Completion>, ok: bool): map<string, Dispatcher> {
    match comp
    case None => requests
    case Some(Assign(key, d)) => if ok then requests[key := d] else requests
    case Some(Install(key, d)) => requests[key := d]
    case Some(Uninstall(key)) => requests - {key}
  }

  /** The events a resolved request produces: `complete(ok)` first, then the
      caller's own callback with what the response carried. */
  function ResolutionEvents(p: Pending, ok: bool, payload: Value): seq<Event> {
    (if p.complete.Some? then [Completed(ok)] else []) + CallbackEvents(p.cbs, ok, payload)
  }

  /** The caller's own callback, if it gave the one the response calls for. */
  function CallbackEvents(cbs: Callbacks, ok: bool, payload: Value): seq<Event> {
    if ok && cbs.hasSuccess then [Succeeded(cbs.tag, payload)]
    else if !ok && cbs.hasError then [Failed(cbs.tag, payload)]
    else []
  }

  /** The wrapped `success` (ok) or `error` (not ok) callback. */
  function Resolve(c: Connection, p: Pending, ok: bool, payload: Value): (c': Connection)
    ensures c'.events == c.events + ResolutionEvents(p, ok, payload)
    ensures c' == c.(requests := c'.requests, events := c'.events)
    ensures c'.requests == CompletedTable(c.requests, p.complete, ok)
  {
    var c1 := MaybeComplete(c, p.complete, ok);
    c1.(events := c1.events + CallbackEvents(p.cbs, ok, payload))
  }

  // ---------------------------------------------------------------------------
  // service

  /** The message `service` emits: it carries the next id exactly when
      callbacks were given. */
  function ServiceMessage(c: Connection, verb: string, params: Value, cbs: Option<Callbacks>): Msg {
    Request(if cbs.Some? then Num(c.lastId + 1) else Undefined, verb, params)
  }

  /** Queue while a flush is due, otherwise send at once. */
  function Emit(c: Connection, m: Msg): (c': Connection)
    ensures c.willFlush ==> c'.pending == c.pending + [m] && c'.outbox == c.outbox
    ensures !c.willFlush ==> c'.pending == c.pending && c'.outbox == c.outbox + [Single(m)]
    ensures c' == c.(pending := c'.pending, outbox := c'.outbox)
  {
    if c.willFlush then Queue(c, m) else c.(outbox := c.outbox + [Single(m)])
  }

  /** `service(method, params, complete, callbacks)`. With callbacks, the
      timeout is copied into params first, which throws for a params value
      that is not an object, before an id is taken. */
  function Service(c: Connection, verb: string, params: Value, complete: Option<Completion>, cbs: Option<Callbacks>): (r: Result<Connection>)
    ensures c.closed ==> r == Throw(ClosedError)
    ensures !c.closed && cbs.Some? && !Extensible(params) ==> r == Throw(TimeoutOnPrimitive)
    ensures r.Ok? <==> !c.closed && (cbs.None? || Extensible(params))
    ensures r.Ok? ==> r.value.closed == c.closed && r.value.willFlush == c.willFlush
    ensures r.Ok? && cbs.Some? ==>
      var c' := r.value;
      // a request: the next id, its callbacks stored under it, nothing run yet
      && c'.lastId == c.lastId + 1
      && c'.responses == c.responses[c'.lastId := Pending(complete, cbs.value)]
      && c'.requests == c.requests && c'.events == c.events
      && (Valid(c) ==> Valid(c') && c'.lastId !in c.responses)
    ensures r.Ok? && cbs.None? ==>
      var c' := r.value;
      // a notification: no id, no entry, `complete(true)` at once
      && c'.lastId == c.lastId && c'.responses == c.responses
      && c'.events == c.events + (if complete.Some? then [Completed(true)] else [])
      && c'.requests == CompletedTable(c.requests, complete, true)
      && (Valid(c) ==> Valid(c'))
    ensures r.Ok? ==>
      var c' := r.value;
      var m := ServiceMessage(c, verb, params, cbs);
      && (c.willFlush ==> c'.pending == c.pending + [m] && c'.outbox == c.outbox)
      && (!c.willFlush ==> c'.pending == c.pending && c'.outbox == c.outbox + [Single(m)])
      && c'.values == c.values && c'.fetchCount == c.fetchCount
  {
    if c.closed then Throw(ClosedError)
    else if cbs.Some? && !Extensible(params) then Throw(TimeoutOnPrimitive)
    else
      var m := ServiceMessage(c, verb, params, cbs);
      var c1 :=
        if cbs.Some? then
          c.(lastId := c.lastId + 1, responses := c.responses[c.lastId + 1 := Pending(complete, cbs.value)])
        else MaybeComplete(c, complete, true);
      Ok(Emit(c1, m))
  }

  // ---------------------------------------------------------------------------
  // Inbound dispatch

  /** `dispatchResponse`: the entry is deleted before its callbacks run, a
      result wins over an error, and an unknown id changes nothing. */
  function DispatchResponse(c: Connection, m: Msg): (c': Connection)
    ensures ResponseSlot(m.id).None? || ResponseSlot(m.id).value !in c.responses ==> c' == c
    ensures ResponseSlot(m.id).Some? && ResponseSlot(m.id).value in c.responses ==>
      var k := ResponseSlot(m.id).value;
      var p := c.responses[k];
      && c'.responses == c.responses - {k}
      && c'.events == c.events +
           (if IsDef(m.result) then ResolutionEvents(p, true, m.result)
            else if IsDef(m.error) then ResolutionEvents(p, false, m.error)
            else [])
      && c'.requests ==
           (if IsDef(m.result) then CompletedTable(c.requests, p.complete, true)
            else if IsDef(m.error) then CompletedTable(c.requests, p.complete, false)
            else c.requests)
    ensures c'.pending == c.pending && c'.outbox == c.outbox && c'.values == c.values
    ensures c'.willFlush == c.willFlush && c'.closed == c.closed && c'.lastId == c.lastId
    ensures Valid(c) ==> Valid(c')
  {
    match ResponseSlot(m.id)
    case None => c
    case Some(k) =>
      if k !in c.responses then c
      else
        var p := c.responses[k];
        var c1 := c.(responses := c.responses - {k});
        if IsDef(m.result) then Resolve(c1, p, true, m.result)
        else if IsDef(m.error) then Resolve(c1, p, false, m.error)
        else c1
  }

  /** The error response a request with no dispatcher gets: calling the
      missing dispatcher throws a TypeError, which the mapper wraps. */
  function MissingDispatcherError(): (e: Value)
    ensures e.Obj? && Get(e, "code") == Num(Util.WrapCode) && Get(e, "message") == Str("Internal error")
    ensures Get(e, "data") == Obj(map["message" := Str("dispatcher is not a function"),
                                      "lineNumber" := Undefined, "fileName" := Undefined])
  {
    Util.ErrorObject(NotAFunction)
  }

  /** `dispatchRequest`: whatever the dispatcher does, nothing escapes, and
      a throw is answered with exactly one mapped error response when the
      request has an id. */
  function DispatchRequest(c: Connection, m: Msg): (c': Connection)
    requires Truthy(m.params)
    ensures OnlyQueues(c, c')
    ensures ToPropertyKey(m.verb) !in c.requests ==>
      c' == c.(pending := c.pending + (if IsDef(m.id) then [ErrorResponse(m.id, MissingDispatcherError())] else []))
    ensures ToPropertyKey(m.verb) in c.requests ==>
      var r := Handlers.RunDispatcher(c, c.requests[ToPropertyKey(m.verb)], m);
      c'.pending == r.0.pending
        + (if r.1.Some? && IsDef(m.id) then [ErrorResponse(m.id, Util.ErrorObject(r.1.value))] else [])
  {
    var key := ToPropertyKey(m.verb);
    if key !in c.requests then
      Handlers.ReplyError(c, m.id, MissingDispatcherError())
    else
      var r := Handlers.RunDispatcher(c, c.requests[key], m);
      match r.1
      case None => r.0
      case Some(e) => Handlers.ReplyError(r.0, m.id, Util.ErrorObject(e))
  }

  /** `dispatchSingleMessage`: a message with a truthy method and truthy
      params is a request; otherwise one with a defined result or error is
      a response; anything else is ignored. */
  function DispatchSingle(c: Connection, m: Msg): (c': Connection)
    ensures Truthy(m.verb) && Truthy(m.params) ==> c' == DispatchRequest(c, m)
    ensures !(Truthy(m.verb) && Truthy(m.params)) && (IsDef(m.result) || IsDef(m.error)) ==>
      c' == DispatchResponse(c, m)
    ensures !(Truthy(m.verb) && Truthy(m.params)) && !IsDef(m.result) && !IsDef(m.error) ==> c' == c
    ensures c'.outbox == c.outbox && c'.willFlush == c.willFlush
    ensures c'.closed == c.closed && c'.lastId == c.lastId
    ensures |c.pending| <= |c'.pending| && c'.pending[..|c.pending|] == c.pending
    ensures Valid(c) ==> Valid(c')
  {
    if Truthy(m.verb) && Truthy(m.params) then DispatchRequest(c, m)
    else if IsDef(m.result) || IsDef(m.error) then DispatchResponse(c, m)
    else c
  }

  /** The elements of an array frame, dispatched in order. */
  function DispatchAll(c: Connection, ms: seq<Msg>): (c': Connection)
    ensures c'.outbox == c.outbox && c'.willFlush == c.willFlush
    ensures c'.closed == c.closed && c'.lastId == c.lastId
    ensures |c.pending| <= |c'.pending| && c'.pending[..|c.pending|] == c.pending
    ensures Valid(c) ==> Valid(c')
    decreases |ms|
  {
    if |ms| == 0 then c
    else
      var c1 := DispatchSingle(c, ms[0]);
      var c2 := DispatchAll(c1, ms[1..]);
      assert c2.pending[..|c.pending|] == c2.pending[..|c1.pending|][..|c.pending|];
      c2
  }

  /** A frame as the socket delivers it, once decoded: undecodable, one
      message, or an array of them. */
  datatype Inbound = Garbled | One(m: Msg) | Many(ms: seq<Msg>)

  /** The dispatch part of a cycle: `willFlush` is set and every message
      of the frame is dispatched, in order. */
  function DispatchCycle(c: Connection, frame: Inbound): (d: Connection)
    requires !frame.Garbled?
    ensures frame.One? ==> d == DispatchSingle(c.(willFlush := true), frame.m)
    ensures frame.Many? ==> d == DispatchAll(c.(willFlush := true), frame.ms)
    ensures d.outbox == c.outbox && d.willFlush
    ensures d.closed == c.closed && d.lastId == c.lastId
    ensures |c.pending| <= |d.pending| && d.pending[..|c.pending|] == c.pending
    ensures Valid(c) ==> Valid(d)
  {
    if frame.One? then DispatchSingle(c.(willFlush := true), frame.m)
    else DispatchAll(c.(willFlush := true), frame.ms)
  }

  /** `dispatchMessage`: an undecodable frame throws out of the decoder
      before anything happens. Otherwise every message is dispatched with
      `willFlush` set, and one flush ends the cycle. */
  function DispatchMessage(c: Connection, frame: Inbound): (c': Connection)
    ensures frame.Garbled? ==> c' == c
    ensures !frame.Garbled? ==>
      var dispatched := DispatchCycle(c, frame);
      && c' == Flush(dispatched)
      // every answer produced in the cycle leaves in at most one frame, after what was pending
      && Sent(c'.outbox) == Sent(c.outbox) + dispatched.pending
      && dispatched.pending[..|c.pending|] == c.pending
      && |c.outbox| <= |c'.outbox| <= |c.outbox| + 1
      && c'.outbox[..|c.outbox|] == c.outbox
      && c'.pending == [] && !c'.willFlush
    ensures c'.closed == c.closed && c'.lastId == c.lastId
    ensures Valid(c) ==> Valid(c')
  {
    if frame.Garbled? then c
    else
      var d := DispatchCycle(c, frame);
      FlushDeliversPending(d);
      Flush(d)
  }

  // ---------------------------------------------------------------------------
  // batch and close

  /** One `service` call issued by user code. */
  datatype Call = Call(verb: string, params: Value, complete: Option<Completion>, cbs: Option<Callbacks>)

  /** A call that `service` refuses on an open connection. */
  predicate Rejected(call: Call) {
    call.cbs.Some? && !Extensible(call.params)
  }

  predicate NoneRejected(calls: seq<Call>) {
    forall i :: 0 <= i < |calls| ==> !Rejected(calls[i])
  }

  /** Issues the calls in order; the first throw stops the rest and leaves
      the effects of the earlier ones in place. */
  function RunCalls(c: Connection, calls: seq<Call>): (r: (Connection, Option<Value>))
    ensures r.0.closed == c.closed && r.0.willFlush == c.willFlush
    ensures c.closed && |calls| > 0 ==> r == (c, Some(ClosedError))
    ensures !c.closed ==> (r.1.None? <==> NoneRejected(calls))
    ensures !c.closed && !NoneRejected(calls) ==> r.1 == Some(TimeoutOnPrimitive)
    decreases |calls|
  {
    if |calls| == 0 then (c, None)
    else
      var call := calls[0];
      match Service(c, call.verb, call.params, call.complete, call.cbs)
      case Throw(e) => (c, Some(e))
      case Ok(c1) => RunCalls(c1, calls[1..])
  }

  /** The messages a run of calls emits, ids allocated in order from
      `lastId + 1` to the calls that carry callbacks, up to the first
      rejected call. */
  function CallMessages(calls: seq<Call>, lastId: nat): seq<Msg>
    decreases |calls|
  {
    if |calls| == 0 || Rejected(calls[0]) then []
    else
      var call := calls[0];
      var next := if call.cbs.Some? then lastId + 1 else lastId;
      [Request(if call.cbs.Some? then Num(lastId + 1) else Undefined, call.verb, call.params)]
        + CallMessages(calls[1..], next)
  }

  /** While a flush is due, a run of calls on an open connection only queues,
      in call order. */
  lemma {:induction false} RunCallsQueues(c: Connection, calls: seq<Call>)
    requires !c.closed && c.willFlush
    ensures RunCalls(c, calls).0.pending == c.pending + CallMessages(calls, c.lastId)
    ensures RunCalls(c, calls).0.outbox == c.outbox
    decreases |calls|
  {
    if |calls| > 0 && !Rejected(calls[0]) {
      var call := calls[0];
      var c1 := Service(c, call.verb, call.params, call.complete, call.cbs).value;
      RunCallsQueues(c1, calls[1..]);
      assert c1.lastId == (if call.cbs.Some? then c.lastId + 1 else c.lastId);
    }
  }

  /** `batch(action)`: the action's calls are queued and leave in one flush. */
  function Batch(c: Connection, calls: seq<Call>): (r: (Connection, Option<Value>))
    ensures r.0.closed == c.closed
    ensures r.1.None? <==> |calls| == 0 || (!c.closed && NoneRejected(calls))
    ensures r.1.None? ==> r.0.pending == [] && !r.0.willFlush
    ensures r.1.Some? ==> r.0.willFlush
  {
    var ran := RunCalls(c.(willFlush := true), calls);
    if ran.1.None? then (Flush(ran.0), None) else ran
  }

  /** Everything issued inside a batch on an open connection goes out as a
      single frame, after whatever was already pending, in call order. A
      rejected call ends the action early: the flush is skipped and what was
      issued before it stays queued. */
  lemma BatchSendsOneFrame(c: Connection, calls: seq<Call>)
    requires !c.closed
    ensures var r := Batch(c, calls);
      && (r.1.None? <==> NoneRejected(calls))
      && (r.1.None? ==>
            && Sent(r.0.outbox) == Sent(c.outbox) + c.pending + CallMessages(calls, c.lastId)
            && |r.0.outbox| == |c.outbox| + (if |c.pending| + |calls| == 0 then 0 else 1))
      && (r.1.Some? ==>
            && r.0.outbox == c.outbox && r.0.willFlush
            && r.0.pending == c.pending + CallMessages(calls, c.lastId))
  {
    if NoneRejected(calls) {
      BatchFlushesEverything(c, calls);
    } else {
      RunCallsQueues(c.(willFlush := true), calls);
    }
  }

  /** The case of `BatchSendsOneFrame` where no call throws. */
  lemma BatchFlushesEverything(c: Connection, calls: seq<Call>)
    requires !c.closed && NoneRejected(calls)
    ensures var r := Batch(c, calls);
      && r.1.None?
      && Sent(r.0.outbox) == Sent(c.outbox) + c.pending + CallMessages(calls, c.lastId)
      && |r.0.outbox| == |c.outbox| + (if |c.pending| + |calls| == 0 then 0 else 1)
  {
    var c0 := c.(willFlush := true);
    RunCallsQueues(c0, calls);
    var ran := RunCalls(c0, calls);
    FlushDeliversPending(ran.0);
    CallMessagesLength(calls, c.lastId);
  }

  lemma {:induction false} CallMessagesLength(calls: seq<Call>, lastId: nat)
    ensures NoneRejected(calls) ==> |CallMessages(calls, lastId)| == |calls|
    decreases |calls|
  {
    if |calls| > 0 && NoneRejected(calls) {
      assert NoneRejected(calls[1..]) by {
        forall i | 0 <= i < |calls[1..]| ensures !Rejected(calls[1..][i]) {
          assert calls[1..][i] == calls[i + 1];
        }
      }
      CallMessagesLength(calls[1..], if calls[0].cbs.Some? then lastId + 1 else lastId);
    }
  }

  /** `close()`: mark closed, flush what is pending, close the socket. */
  function Close(c: Connection): (c': Connection)
    ensures c'.closed && c'.pending == [] && !c'.willFlush
    ensures Sent(c'.outbox) == Sent(c.outbox) + c.pending
    ensures c'.events == c.events + [SocketCloseRequested]
  {
    var c1 := Flush(c.(closed := true));
    FlushDeliversPending(c.(closed := true));
    c1.(events := c1.events + [SocketCloseRequested])
  }

  /** The socket's `onclose`; `CloseHook` stands for `config.onClose`, which
      runs only when configured. */
  function OnClose(c: Connection): (c': Connection)
    ensures c'.closed && c'.pending == c.pending && c'.outbox == c.outbox
    ensures c'.events == c.events + [CloseHook]
  {
    c.(closed := true, events := c.events + [CloseHook])
  }

  /** The socket's `onerror`; `ErrorHook` stands for `config.onError`, which
      runs only when configured. */
  function OnError(c: Connection, err: Value): (c': Connection)
    ensures c'.closed && c'.pending == c.pending && c'.outbox == c.outbox
    ensures c'.events == c.events + [ErrorHook(err)]
  {
    c.(closed := true, events := c.events + [ErrorHook(err)])
  }

  // ---------------------------------------------------------------------------
  // Runs of steps

  /** Anything that can happen to a connection. */
  datatype Step =
    | Receive(frame: Inbound)
    | Issue(call: Call)
    | BatchOf(calls: seq<Call>)
    | FlushNow
    | CloseNow
    | SocketClosed
    | SocketFailed(err: Value)
    | ReplyWith(token: ReplyToken, resp: AsyncResponseArg, dontFlush: bool)

  type AsyncResponseArg = Handlers.AsyncResponse

  /** One step; a step that throws leaves the state as far as it got. */
  function Apply(c: Connection, s: Step): Connection {
    match s
    case Receive(frame) => DispatchMessage(c, frame)
    case Issue(call) =>
      var r := Service(c, call.verb, call.params, call.complete, call.cbs);
      if r.Ok? then r.value else c
    case BatchOf(calls) => Batch(c, calls).0
    case FlushNow => Flush(c)
    case CloseNow => Close(c)
    case SocketClosed => OnClose(c)
    case SocketFailed(err) => OnError(c, err)
    case ReplyWith(token, resp, dontFlush) =>
      var r := Handlers.Reply(c, token, resp, dontFlush);
      if r.Ok? then r.value else c
  }

  function Run(c: Connection, steps: seq<Step>): Connection
    decreases |steps|
  {
    if |steps| == 0 then c else Run(Apply(c, steps[0]), steps[1..])
  }

  /** No step reopens a closed connection. */
  lemma {:induction false} ClosedStaysClosed(c: Connection, steps: seq<Step>)
    requires c.closed
    ensures Run(c, steps).closed
    decreases |steps|
  {
    if |steps| > 0 {
      ClosedStaysClosed(Apply(c, steps[0]), steps[1..]);
    }
  }

  /** Once `close`, `onclose` or `onerror` has run, whatever happens next,
      `service` throws and neither queues nor sends. */
  lemma FailFastAfterClose(c: Connection, closing: Step, steps: seq<Step>, verb: string, params: Value,
                           complete: Option<Completion>, cbs: Option<Callbacks>)
    requires closing.CloseNow? || closing.SocketClosed? || closing.SocketFailed?
    ensures Service(Run(Apply(c, closing), steps), verb, params, complete, cbs) == Throw(ClosedError)
  {
    ClosedStaysClosed(Apply(c, closing), steps);
  }

  /** A response is delivered at most once: a second response with the same
      id finds no entry and changes nothing. */
  lemma ResponseDeliveredOnce(c: Connection, m1: Msg, m2: Msg)
    requires ResponseSlot(m1.id).Some? && ResponseSlot(m2.id) == ResponseSlot(m1.id)
    ensures var c1 := DispatchResponse(c, m1);
      DispatchResponse(c1, m2) == c1
  {
  }

  /** A request with callbacks is issued only when its params can take the
      `timeout` property; its response then reaches exactly those callbacks: `complete(true)` then `success(result)` for a result,
      `complete(false)` then `error(error)` for an error. */
  lemma RequestResolvedByItsResponse(c: Connection, verb: string, params: Value,
                                     complete: Option<Completion>, cbs: Callbacks, m: Msg)
    requires !c.closed && Valid(c)
    requires ResponseSlot(m.id) == Some(c.lastId + 1)
    requires IsDef(m.result) || IsDef(m.error)
    ensures var r := Service(c, verb, params, complete, Some(cbs));
      && (r.Ok? <==> Extensible(params))
      && (r.Ok? ==>
            var c2 := DispatchResponse(r.value, m);
            var p := Pending(complete, cbs);
            && c2.responses == c.responses
            && c2.events == r.value.events +
                 (if IsDef(m.result) then ResolutionEvents(p, true, m.result) else ResolutionEvents(p, false, m.error)))
  {
  }
}

=== FILE: errors.dfy ===
/** The JSON-RPC error-table constructors at the top of `peer.js`. */
module PeerErrors {
  import opened JsValues
  import Util

  const ParseErrorCode: int := -32700
  const InvalidRequestCode: int := -32600
  const MethodNotFoundCode: int := -32601
  const InvalidParamsCode: int := -32602
  const InternalErrorCode: int := -32603
  const ResponseTimeoutCode: int := -32001

  function InvalidParams(data: Value): Value {
    Util.ErrorTable(InvalidParamsCode, "Invalid params", data)
  }

  function ResponseTimeout(data: Value): Value {
    Util.ErrorTable(ResponseTimeoutCode, "Response Timeout", data)
  }

  function InternalError(data: Value): Value {
    Util.ErrorTable(InternalErrorCode, "Internal error", data)
  }

  function ParseError(data: Value): Value {
    Util.ErrorTable(ParseErrorCode, "Parse error", data)
  }

  /** Carries the method name that found no handler as its data. */
  function MethodNotFound(name: Value): Value {
    Util.ErrorTable(MethodNotFoundCode, "Method not found", name)
  }

  function InvalidRequest(data: Value): Value {
    Util.ErrorTable(InvalidRequestCode, "Invalid Request", data)
  }

  /** The error kinds the peer can name. */
  datatype Kind = ParseErr | InvalidReq | NotFound | BadParams | Internal | Timeout

  function Build(k: Kind, data: Value): Value {
    match k
    case ParseErr => ParseError(data)
    case InvalidReq => InvalidRequest(data)
    case NotFound => MethodNotFound(data)
    case BadParams => InvalidParams(data)
    case Internal => InternalError(data)
    case Timeout => ResponseTimeout(data)
  }

  /** Every constructor builds a table the error mapper passes through
      untouched, carrying the given data; different kinds get different
      codes, so the code alone tells a receiver which error it got. */
  lemma ConstructorsAreDistinctShapedErrors(k1: Kind, k2: Kind, data: Value)
    ensures Util.IsErrorShaped(Build(k1, data))
    ensures Util.ErrorObject(Build(k1, data)) == Build(k1, data)
    ensures Get(Build(k1, data), "data") == data
    ensures k1 != k2 ==> Get(Build(k1, data), "code") != Get(Build(k2, data), "code")
  {
  }

  /** `peer.js`'s Invalid-params constructor and `src/util.js`'s agree. */
  lemma InvalidParamsAgree(data: Value)
    ensures InvalidParams(data) == Util.InvalidParams(data)
  {
  }

  /** The Internal-error constructor uses the JSON-RPC 2.0 code -32603, while
      the error mapper wraps with -32602 under the same message. */
  lemma InternalCodeDiffersFromMapper(err: Value, data: Value)
    requires !err.Null? && !Util.IsErrorShaped(err)
    ensures Get(InternalError(data), "message") == Get(Util.ErrorObject(err), "message")
    ensures Get(InternalError(data), "code") != Get(Util.ErrorObject(err), "code")
  {
  }
}

=== FILE: handlers.dfy ===
/** The request dispatchers the resource façade of `peer.js` installs (state
    setters, methods, fetchers) and the reply continuations of its
    asynchronous handlers. Each dispatcher runs inside an inbound-dispatch
    cycle, so it only queues; the cycle's single flush sends what it queued. */
module Handlers {
  import opened JsValues
  import opened Scheduler
  import Util

  /** Queue `{id, error}` when the request carried an id; a notification
      gets no answer. */
  function ReplyError(c: Connection, mid: Value, err: Value): (c': Connection)
    ensures c'.pending == c.pending + (if IsDef(mid) then [ErrorResponse(mid, err)] else [])
    ensures OnlyQueues(c, c') && c'.values == c.values && c'.events == c.events
  {
    if IsDef(mid) then Queue(c, ErrorResponse(mid, err)) else c
  }

  /** The arguments a method handler is invoked with. */
  function ArgsOf(params: Value): (a: CallArgs)
    ensures a.Spread? <==> IsArr(params) && |params.items| > 0
  {
    if IsArr(params) && |params.items| > 0 then Spread(params.items) else Whole(params)
  }

  /** The params value that produces the given arguments. */
  function ParamsOf(a: CallArgs): Value {
    match a
    case Spread(args) => Arr(args)
    case Whole(v) => v
  }

  /** Argument spreading loses nothing: the handler's arguments determine
      the params they came from. */
  lemma ArgsRoundTrip(params: Value)
    ensures ParamsOf(ArgsOf(params)) == params
  {
  }

  // ---------------------------------------------------------------------------
  // States

  /** The value a state caches after a setter returned `v` for the requested
      `value`: `(v || {}).value || value`. */
  function SetValue(v: Value, value: Value): Value {
    var result := if Truthy(v) then v else Obj(map[]);
    if Truthy(Get(result, "value")) then Get(result, "value") else value
  }

  /** Whether a setter's return value `v` suppresses the `change`
      notification: `(v || {}).dontNotify`. */
  predicate SuppressesChange(v: Value) {
    Truthy(v) && Truthy(Get(v, "dontNotify"))
  }

  /** The dispatcher of a state with a synchronous `set`. */
  function RunSyncSet(c: Connection, path: string, setter: Value -> Outcome, m: Msg): (c': Connection)
    requires Truthy(m.params)
    ensures OnlyQueues(c, c') && c'.events == c.events
    ensures var value := Get(m.params, "value");
      match setter(value)
      case Returned(v) =>
        // the cache holds the setter's truthy `.value` override, else the requested value
        && c'.values == c.values[path := if Truthy(v) && Truthy(Get(v, "value")) then Get(v, "value") else value]
        // `{id, result: true}` first, then the change notification
        && c'.pending == c.pending
             + (if IsDef(m.id) then [ResultResponse(m.id, Bool(true))] else [])
             + (if SuppressesChange(v) then [] else [Change(path, c'.values[path])])
      case Threw(e) =>
        && c'.values == c.values
        && c'.pending == c.pending
             + (if IsDef(m.id) then [ErrorResponse(m.id, Util.ErrorObject(e))] else [])
  {
    var value := Get(m.params, "value");
    match setter(value)
    case Returned(v) =>
      var newValue := SetValue(v, value);
      var c1 := c.(values := c.values[path := newValue]);
      var c2 := if IsDef(m.id) then Queue(c1, ResultResponse(m.id, Bool(true))) else c1;
      if SuppressesChange(v) then c2 else Queue(c2, Change(path, newValue))
    case Threw(e) =>
      ReplyError(c, m.id, Util.ErrorObject(e))
  }

  /** The dispatcher of a read-only state (neither `set` nor `setAsync`). */
  function RunReadOnly(c: Connection, m: Msg): (c': Connection)
    ensures OnlyQueues(c, c') && c'.values == c.values && c'.events == c.events
    ensures c'.pending == c.pending
      + (if IsDef(m.id) then [ErrorResponse(m.id, Util.InvalidParams(Undefined))] else [])
  {
    ReplyError(c, m.id, Util.InvalidParams(Undefined))
  }

  /** The dispatcher of a state with `setAsync`: the setter gets the reply
      continuation; a synchronous throw is answered at once. */
  function RunAsyncSet(c: Connection, path: string, asyncSetter: Value -> Option<Thrown>, m: Msg): (c': Connection)
    requires Truthy(m.params)
    ensures OnlyQueues(c, c') && c'.values == c.values
    ensures c'.events == c.events + [AwaitingReply(StateReply(path, m.id, Get(m.params, "value")))]
    ensures var thrown := asyncSetter(Get(m.params, "value"));
      c'.pending == c.pending
        + (if thrown.Some? && IsDef(m.id) then [ErrorResponse(m.id, Util.ErrorObject(thrown.value))] else [])
  {
    var value := Get(m.params, "value");
    var c1 := c.(events := c.events + [AwaitingReply(StateReply(path, m.id, value))]);
    match asyncSetter(value)
    case None => c1
    case Some(e) => ReplyError(c1, m.id, Util.ErrorObject(e))
  }

  // ---------------------------------------------------------------------------
  // Methods

  /** The result a synchronous method answers with: `result || {}`. */
  function CallResult(v: Value): (r: Value)
    ensures Truthy(r)
    ensures Truthy(v) ==> r == v
  {
    if Truthy(v) then v else Obj(map[])
  }

  /** Whether the `call` handler's outcome counts as success. The source
      tests whether the caught exception is defined, so `throw undefined`
      counts as success with an undefined result. */
  predicate CallSucceeded(out: Outcome) {
    out.Returned? || !IsDef(out.e)
  }

  /** The dispatcher of a method with a synchronous `call`. */
  function RunSyncCall(c: Connection, call: CallArgs -> Outcome, m: Msg): (c': Connection)
    ensures OnlyQueues(c, c') && c'.values == c.values && c'.events == c.events
    ensures !IsDef(m.id) ==> c'.pending == c.pending
    ensures var out := call(ArgsOf(m.params));
      IsDef(m.id) ==>
        c'.pending == c.pending +
          [if CallSucceeded(out)
           then ResultResponse(m.id, CallResult(if out.Returned? then out.v else Undefined))
           else ErrorResponse(m.id, Util.ErrorObject(out.e))]
  {
    var out := call(ArgsOf(m.params));
    if !IsDef(m.id) then c
    else if CallSucceeded(out) then
      Queue(c, ResultResponse(m.id, CallResult(if out.Returned? then out.v else Undefined)))
    else
      Queue(c, ErrorResponse(m.id, Util.ErrorObject(out.e)))
  }

  /** The dispatcher of a method with `callAsync`. */
  function RunAsyncCall(c: Connection, path: string, asyncCall: CallArgs -> Option<Thrown>, m: Msg): (c': Connection)
    ensures OnlyQueues(c, c') && c'.values == c.values
    ensures c'.events == c.events + [AwaitingReply(MethodReply(path, m.id))]
    ensures var thrown := asyncCall(ArgsOf(m.params));
      c'.pending == c.pending
        + (if thrown.Some? && IsDef(m.id) then [ErrorResponse(m.id, Util.ErrorObject(thrown.value))] else [])
  {
    var c1 := c.(events := c.events + [AwaitingReply(MethodReply(path, m.id))]);
    match asyncCall(ArgsOf(m.params))
    case None => c1
    case Some(e) => ReplyError(c1, m.id, Util.ErrorObject(e))
  }

  /** The arguments `desc.callAsync.apply(undefined, reply, params)` passes
      as written: `apply` reads its argument list from `reply`, a function
      of two parameters with no indexed properties, so the handler gets two
      `undefined`s and neither the params nor the continuation. */
  const ApplyOfReply: CallArgs := Spread([Undefined, Undefined])

  /** The `callAsync` dispatcher as written: for a non-empty params array the
      handler is invoked through `apply` with `reply` as the argument list. */
  function RunAsyncCallAsWritten(c: Connection, path: string, asyncCall: CallArgs -> Option<Thrown>, m: Msg): (c': Connection)
    ensures !(IsArr(m.params) && |m.params.items| > 0) ==> c' == RunAsyncCall(c, path, asyncCall, m)
    ensures IsArr(m.params) && |m.params.items| > 0 ==>
      && c' == c.(pending := c'.pending)
      && c'.pending == c.pending
           + (if asyncCall(ApplyOfReply).Some? && IsDef(m.id)
              then [ErrorResponse(m.id, Util.ErrorObject(asyncCall(ApplyOfReply).value))] else [])
  {
    if IsArr(m.params) && |m.params.items| > 0 then
      match asyncCall(ApplyOfReply)
      case None => c
      case Some(e) => ReplyError(c, m.id, Util.ErrorObject(e))
    else RunAsyncCall(c, path, asyncCall, m)
  }

  /** Finding, as written: a call with a non-empty args array to a `callAsync`
      method that does not throw is never answered. The handler gets no
      continuation, so no reply can follow, and nothing is queued. */
  lemma ArrayCallNeverAnswered(c: Connection, path: string, asyncCall: CallArgs -> Option<Thrown>, m: Msg)
    requires IsArr(m.params) && |m.params.items| > 0 && IsDef(m.id)
    requires asyncCall(ApplyOfReply).None?
    ensures RunAsyncCallAsWritten(c, path, asyncCall, m) == c
  {
  }

  /** Corrected: every call reaches the handler with its params intact and
      with a continuation for its id, and replying through that continuation
      emits exactly one answer carrying the id. */
  lemma AsyncCallAnsweredThroughReply(c: Connection, path: string, asyncCall: CallArgs -> Option<Thrown>,
                                      m: Msg, resp: AsyncResponse, dontFlush: bool)
    requires IsDef(m.id) && asyncCall(ArgsOf(m.params)).None?
    ensures ParamsOf(ArgsOf(m.params)) == m.params
    ensures var c1 := RunAsyncCall(c, path, asyncCall, m);
      && c1.events == c.events + [AwaitingReply(MethodReply(path, m.id))]
      && c1.pending == c.pending
      && var c2 := ReplyMethod(c1, path, m.id, resp, dontFlush);
         var answer := Select(m.id, resp.result, resp.error, Str("jet.peer Invalid async method response " + path));
         && Delivered(c2) == Delivered(c1) + [answer]
         && answer.id == m.id && IsDef(answer.result) != IsDef(answer.error)
  {
    ArgsRoundTrip(m.params);
    SelectAnswersExactlyOnce(m.id, resp.result, resp.error, path);
  }

  // ---------------------------------------------------------------------------
  // Fetchers and raw dispatchers

  /** The dispatcher a fetch installs: it forwards the daemon's notification
      to the fetch callback, one change at a time or as a sorted batch. The
      callback runs outside any `try`, so what it throws leaves the
      dispatcher. */
  function RunFetcher(c: Connection, fetchId: string, sorted: bool, notify: FetchArgs -> Option<Thrown>, m: Msg): (r: (Connection, Option<Thrown>))
    requires Truthy(m.params)
    ensures r.0 == c.(events := r.0.events)
    ensures !sorted ==>
      var args := Unsorted(Get(m.params, "path"), Get(m.params, "event"), Get(m.params, "value"));
      && r.0.events == c.events + [FetchNotified(fetchId, args.path, args.event, args.value)]
      && r.1 == notify(args)
    ensures sorted ==>
      var args := Sorted(Get(m.params, "changes"), Get(m.params, "n"));
      && r.0.events == c.events + [FetchSorted(fetchId, args.changes, args.n)]
      && r.1 == notify(args)
  {
    var p := m.params;
    if !sorted then
      var args := Unsorted(Get(p, "path"), Get(p, "event"), Get(p, "value"));
      (c.(events := c.events + [FetchNotified(fetchId, args.path, args.event, args.value)]), notify(args))
    else
      var args := Sorted(Get(p, "changes"), Get(p, "n"));
      (c.(events := c.events + [FetchSorted(fetchId, args.changes, args.n)]), notify(args))
  }

  /** Runs whichever dispatcher is installed. Only a raw dispatcher (user
      code given to `addRequestDispatcher`) and a fetcher (whose callback is
      called outside any `try`) can let an exception out; the state and
      method dispatchers catch theirs. */
  function RunDispatcher(c: Connection, d: Dispatcher, m: Msg): (r: (Connection, Option<Thrown>))
    requires Truthy(m.params)
    ensures OnlyQueues(c, r.0)
    ensures r.1.Some? ==> d.Raw? || d.Fetcher?
    ensures d.Raw? ==> r.0 == c.(events := c.events + [RawDispatched(d.tag, m)]) && r.1 == d.run(m)
  {
    match d
    case Raw(tag, run) => (c.(events := c.events + [RawDispatched(tag, m)]), run(m))
    case SyncSet(path, setter) => (RunSyncSet(c, path, setter, m), None)
    case AsyncSet(path, asyncSetter) => (RunAsyncSet(c, path, asyncSetter, m), None)
    case ReadOnly(_) => (RunReadOnly(c, m), None)
    case SyncCall(_, call) => (RunSyncCall(c, call, m), None)
    case AsyncCall(path, asyncCall) => (RunAsyncCall(c, path, asyncCall, m), None)
    case Fetcher(fetchId, sorted, notify) => RunFetcher(c, fetchId, sorted, notify, m)
  }

  // ---------------------------------------------------------------------------
  // Asynchronous replies

  /** The object an asynchronous handler passes to `reply`. */
  datatype AsyncResponse = AsyncResponse(result: Value, error: Value, value: Value, dontNotify: Value, dontFlush: Value)

  /** The response a reply selects: the result when it is defined and no
      error is, else the (mapped) error, else the fallback error. */
  function Select(mid: Value, result: Value, error: Value, fallback: Value): (r: Msg)
    ensures r.id == mid && !IsDef(r.verb) && !IsDef(r.params)
    ensures IsDef(r.result) <==> IsDef(result) && !IsDef(error)
    ensures IsDef(r.result) ==> r.result == result && !IsDef(r.error)
    ensures !IsDef(r.result) ==> r.error == (if IsDef(error) then error else fallback)
  {
    if IsDef(result) && !IsDef(error) then ResultResponse(mid, result)
    else if IsDef(error) then ErrorResponse(mid, error)
    else ErrorResponse(mid, fallback)
  }

  /** A fallback error is never `undefined`, so the selected response always
      carries exactly one of result and error. */
  lemma SelectAnswersExactlyOnce(mid: Value, result: Value, error: Value, path: string)
    ensures var r := Select(mid, result, error, Str("jet.peer Invalid async method response " + path));
      IsDef(r.result) != IsDef(r.error)
  {
  }

  /** `reply(resp, dontFlush)` of an asynchronous method. */
  function ReplyMethod(c: Connection, path: string, mid: Value, resp: AsyncResponse, dontFlush: bool): (c': Connection)
    ensures !IsDef(mid) ==> c' == c
    ensures IsDef(mid) ==>
      && Delivered(c') == Delivered(c)
           + [Select(mid, resp.result, resp.error, Str("jet.peer Invalid async method response " + path))]
      && (!c.willFlush && !dontFlush ==> c'.pending == [] && |c'.outbox| == |c.outbox| + 1)
      && (c.willFlush || dontFlush ==> c'.outbox == c.outbox)
      && c'.values == c.values && c'.requests == c.requests && c'.responses == c.responses
  {
    if !IsDef(mid) then c
    else
      var c1 := Queue(c, Select(mid, resp.result, resp.error, Str("jet.peer Invalid async method response " + path)));
      if !c1.willFlush && !dontFlush then FlushDeliversPending(c1); Flush(c1) else c1
  }

  /** The response a state's `reply(resp)` answers with; the source maps
      `resp.error` through the error mapper, which throws on `null`. */
  function StateAnswer(mid: Value, path: string, resp: AsyncResponse): Msg
    requires !resp.error.Null?
  {
    Select(mid, resp.result,
           if IsDef(resp.error) then Util.ErrorObject(resp.error) else Undefined,
           Str("jet.peer Invalid async state response " + path))
  }

  /** Whether a state's reply takes the new value and announces it. */
  predicate Accepted(resp: AsyncResponse) {
    IsDef(resp.result) && !IsDef(resp.dontNotify)
  }

  /** The value an accepted state reply caches. */
  function Cached(resp: AsyncResponse, requested: Value): Value {
    if IsDef(resp.value) then resp.value else requested
  }

  function QueueStateReply(c: Connection, path: string, mid: Value, requested: Value, resp: AsyncResponse): (c': Connection)
    requires IsDef(mid) ==> !resp.error.Null?
    ensures c'.pending == c.pending
      + (if IsDef(mid) then [StateAnswer(mid, path, resp)] else [])
      + (if Accepted(resp) then [Change(path, Cached(resp, requested))] else [])
    ensures c'.values == (if Accepted(resp) then c.values[path := Cached(resp, requested)] else c.values)
    ensures c' == c.(pending := c'.pending, values := c'.values)
  {
    var c1 := if IsDef(mid) then Queue(c, StateAnswer(mid, path, resp)) else c;
    if Accepted(resp) then
      var v := Cached(resp, requested);
      Queue(c1.(values := c1.values[path := v]), Change(path, v))
    else c1
  }

  /** `reply(resp)` of an asynchronous state. */
  function ReplyState(c: Connection, path: string, mid: Value, requested: Value, resp: AsyncResponse): (c': Connection)
    requires IsDef(mid) ==> !resp.error.Null?
    ensures Delivered(c') == Delivered(c)
      + (if IsDef(mid) then [StateAnswer(mid, path, resp)] else [])
      + (if Accepted(resp) then [Change(path, Cached(resp, requested))] else [])
    ensures c'.values == (if Accepted(resp) then c.values[path := Cached(resp, requested)] else c.values)
    ensures c'.requests == c.requests && c'.responses == c.responses
    ensures !c.willFlush && !Truthy(resp.dontFlush) ==> c'.pending == []
    ensures c.willFlush || Truthy(resp.dontFlush) ==> c'.outbox == c.outbox
  {
    var c2 := QueueStateReply(c, path, mid, requested, resp);
    QueuedDelivered(c, c2, (if IsDef(mid) then [StateAnswer(mid, path, resp)] else [])
      + (if Accepted(resp) then [Change(path, Cached(resp, requested))] else []));
    if !c2.willFlush && !Truthy(resp.dontFlush) then FlushKeepsDelivered(c2); Flush(c2) else c2
  }

  /** The TypeError the error mapper throws when handed `null`. */
  const NullPropertyError: Value := Field("message", Str("Cannot read properties of null"))

  /** Invoking a reply continuation. For a method, `dontFlush` is the
      truthiness of `reply`'s second argument. A state reply whose `error`
      is `null` throws out of the error mapper before anything is queued. */
  function Reply(c: Connection, token: ReplyToken, resp: AsyncResponse, dontFlush: bool): (r: Result<Connection>)
    ensures r.Throw? <==> token.StateReply? && IsDef(token.mid) && resp.error.Null?
    ensures r.Ok? ==> r.value.closed == c.closed && r.value.lastId == c.lastId
    ensures r.Ok? ==>
      |Delivered(c)| <= |Delivered(r.value)| && Delivered(r.value)[..|Delivered(c)|] == Delivered(c)
  {
    match token
    case MethodReply(path, mid) => Ok(ReplyMethod(c, path, mid, resp, dontFlush))
    case StateReply(path, mid, requested) =>
      if IsDef(mid) && resp.error.Null? then Throw(NullPropertyError)
      else Ok(ReplyState(c, path, mid, requested, resp))
  }

  /** The asynchronous setter's cycle: a `set` with an id hands the setter a
      continuation for that id and the requested value. Replying through it
      with a non-null error emits exactly one answer carrying the id, with a
      result exactly when the reply has a result and no error, then the
      `change` when the reply is accepted. */
  lemma AsyncSetAnsweredThroughReply(c: Connection, path: string, asyncSetter: Value -> Option<Thrown>,
                                     m: Msg, resp: AsyncResponse)
    requires Truthy(m.params) && IsDef(m.id)
    requires asyncSetter(Get(m.params, "value")).None? && !resp.error.Null?
    ensures var v := Get(m.params, "value");
      var c1 := RunAsyncSet(c, path, asyncSetter, m);
      && c1.events == c.events + [AwaitingReply(StateReply(path, m.id, v))]
      && c1.pending == c.pending && c1.values == c.values
      && var r := Reply(c1, StateReply(path, m.id, v), resp, false);
         var answer := StateAnswer(m.id, path, resp);
         && r.Ok?
         && Delivered(r.value) == Delivered(c1) + [answer]
              + (if Accepted(resp) then [Change(path, Cached(resp, v))] else [])
         && r.value.values == (if Accepted(resp) then c.values[path := Cached(resp, v)] else c.values)
         && answer.id == m.id && IsDef(answer.result) != IsDef(answer.error)
         && (IsDef(answer.result) <==> IsDef(resp.result) && !IsDef(resp.error))
  {
  }
}

=== FILE: jet.dfy ===
/** The legacy browser client of `jet.js`: one id counter, one table of
    dispatchers keyed by request id, method name or fetch id, and a queue of
    requests made before the socket opened.

    The socket's `send` appends a `Wire` (the message and the codec it was
    encoded with) to `outbox`; `readyState === OPEN` is the `open` flag; the
    `onopen`, `onclose` and `onerror` callbacks are events. */
module Jet {
  import opened JsValues
  import opened Scheduler
  import Engine

  datatype Codec = Json | Msgpack

  /** What one `ws.send` carried. */
  datatype Wire = Wire(m: Msg, codec: Codec)

  /** A user callback: `tag` names it in events, `run` says whether it
      throws when called with two arguments (the second is `undefined` when
      the client passes only one). */
  datatype Fn = Fn(tag: nat, run: (Value, Value) -> Option<Thrown>)

  /** What the dispatcher table holds: a user callback, the wrapper
      `setEncoding` puts around its callback, or the wrapper `unfetch` puts
      around its callback. */
  datatype JetHandler =
    | User(f: Fn)
    | ConfigDone(cb: Option<Fn>)
    | UnfetchDone(fetchKey: string, cb: Option<Fn>)

  datatype JetEvent =
    | Called(tag: nat, first: Value, second: Value)
    | DispatchFailed(m: Msg)
    | Opened
    | ClosedByUser

  datatype Client = Client(
    open: bool,
    preConnect: seq<Msg>,                    // `preConnectQueue`
    outbox: seq<Wire>,
    dispatchers: map<string, JetHandler>,
    lastId: nat,                             // `id`
    fetchCount: nat,                         // `fetchId`
    codec: Codec,                            // `encode` / `decode`
    msgpackAvailable: bool,                  // `window.msgpack` is defined
    events: seq<JetEvent>)

  /** A client whose socket is still connecting. */
  function Create(msgpackAvailable: bool): (c: Client)
    ensures !c.open && c.preConnect == [] && c.outbox == [] && c.dispatchers == map[]
    ensures c.lastId == 0 && c.fetchCount == 0 && c.codec == Json
  {
    Client(false, [], [], map[], 0, 0, Json, msgpackAvailable, [])
  }

  /** `isDefined`: unlike `typeof x !== 'undefined'`, null does not count. */
  predicate IsDefined(v: Value): (b: bool)
    ensures b <==> HasProperties(v)
    ensures b ==> IsDef(v)
    ensures v.Null? ==> IsDef(v) && !b
  {
    !v.Undefined? && !v.Null?
  }

  /** The table key a request with the given id is stored under. */
  function IdKey(n: nat): string {
    NatToString(n)
  }

  /** The table key and wire id of the n-th fetch. */
  function FetchKey(n: nat): string {
    "f" + NatToString(n)
  }

  // ---------------------------------------------------------------------------
  // Outbound

  /** `c'` has issued `m` after `c`: sent when the socket is open, appended
      to the pre-connect queue otherwise. */
  predicate Issued(c: Client, c': Client, m: Msg) {
    if c.open then c'.outbox == c.outbox + [Wire(m, c.codec)] && c'.preConnect == c.preConnect
    else c'.preConnect == c.preConnect + [m] && c'.outbox == c.outbox
  }

  /** The id the next request takes, if it has a callback. */
  function NextId(c: Client, hasCallback: bool): Value {
    if hasCallback then Num(c.lastId + 1) else Undefined
  }

  /** `request(method, params, callback)`: only a request with a callback
      takes an id; it is sent at once when the socket is open and queued
      otherwise. */
  function Request(c: Client, verb: string, params: Value, cb: Option<JetHandler>): (c': Client)
    ensures cb.Some? ==>
      && c'.lastId == c.lastId + 1
      && c'.dispatchers == c.dispatchers[IdKey(c'.lastId) := cb.value]
    ensures cb.None? ==> c'.lastId == c.lastId && c'.dispatchers == c.dispatchers
    ensures Issued(c, c', Scheduler.Request(NextId(c, cb.Some?), verb, params))
    ensures c'.open == c.open && c'.codec == c.codec && c'.fetchCount == c.fetchCount && c'.events == c.events
  {
    var c1 :=
      if cb.Some? then c.(lastId := c.lastId + 1, dispatchers := c.dispatchers[IdKey(c.lastId + 1) := cb.value])
      else c;
    var m := Scheduler.Request(if cb.Some? then Num(c1.lastId) else Undefined, verb, params);
    if c1.open then c1.(outbox := c1.outbox + [Wire(m, c1.codec)])
    else c1.(preConnect := c1.preConnect + [m])
  }

  function UserCallback(cb: Option<Fn>): Option<JetHandler> {
    if cb.Some? then Some(User(cb.value)) else None
  }

  /** `instance.set(path, val, callback)` */
  function SetRemote(c: Client, path: string, value: Value, cb: Option<Fn>): (c': Client)
    ensures Issued(c, c', Scheduler.Request(NextId(c, cb.Some?), "set", Obj(map["path" := Str(path), "value" := value])))
    ensures cb.Some? ==> c'.dispatchers == c.dispatchers[IdKey(c.lastId + 1) := User(cb.value)]
    ensures cb.None? ==> c'.dispatchers == c.dispatchers && c'.lastId == c.lastId
  {
    Request(c, "set", Obj(map["path" := Str(path), "value" := value]), UserCallback(cb))
  }

  /** `instance.call(path, args, callback)`: unlike the peer, no default
      for missing arguments. */
  function CallRemote(c: Client, path: string, args: Value, cb: Option<Fn>): (c': Client)
    ensures Issued(c, c', Scheduler.Request(NextId(c, cb.Some?), "call", Obj(map["path" := Str(path), "args" := args])))
    ensures cb.Some? ==> c'.dispatchers == c.dispatchers[IdKey(c.lastId + 1) := User(cb.value)]
    ensures cb.None? ==> c'.dispatchers == c.dispatchers && c'.lastId == c.lastId
  {
    Request(c, "call", Obj(map["path" := Str(path), "args" := args]), UserCallback(cb))
  }

  /** The wire images of queued messages under one codec. */
  function Encoded(ms: seq<Msg>, codec: Codec): (ws: seq<Wire>)
    ensures |ws| == |ms|
    ensures forall i :: 0 <= i < |ms| ==> ws[i] == Wire(ms[i], codec)
  {
    if |ms| == 0 then [] else Encoded(ms[..|ms| - 1], codec) + [Wire(ms[|ms| - 1], codec)]
  }

  /** `ws.onopen`: the queued requests go out in the order they were made,
      with the codec in force now, before `onopen` runs. The queue is not
      cleared. */
  function OnOpen(c: Client): (c': Client)
    ensures c'.open
    ensures c'.outbox == c.outbox + Encoded(c.preConnect, c.codec)
    ensures c'.preConnect == c.preConnect
    ensures c'.events == c.events + [Opened]
    ensures c'.dispatchers == c.dispatchers && c'.lastId == c.lastId
  {
    c.(open := true, outbox := c.outbox + Encoded(c.preConnect, c.codec), events := c.events + [Opened])
  }

  /** `instance.close()`: the socket is closed and `onclose` runs once. */
  function Close(c: Client): (c': Client)
    ensures !c'.open && c'.events == c.events + [ClosedByUser]
    ensures c'.outbox == c.outbox && c'.dispatchers == c.dispatchers
  {
    c.(open := false, events := c.events + [ClosedByUser])
  }

  // ---------------------------------------------------------------------------
  // Inbound

  /** Calls an optional user callback with `(a, b)`. */
  function CallOptional(c: Client, cb: Option<Fn>, a: Value, b: Value): (r: (Client, Option<Thrown>))
    ensures cb.None? ==> r == (c, None)
    ensures cb.Some? ==> r == (c.(events := c.events + [Called(cb.value.tag, a, b)]), cb.value.run(a, b))
  {
    if cb.None? then (c, None)
    else (c.(events := c.events + [Called(cb.value.tag, a, b)]), cb.value.run(a, b))
  }

  /** Calling a table entry with `(a, b)`: the `setEncoding` wrapper switches
      codec when `a` (the error) is not defined, the `unfetch` wrapper drops
      its fetch's entry; both then call the user's callback, if any. */
  function Invoke(c: Client, h: JetHandler, a: Value, b: Value): (r: (Client, Option<Thrown>))
    ensures r.0.outbox == c.outbox && r.0.open == c.open && r.0.lastId == c.lastId
    ensures r.0.fetchCount == c.fetchCount && r.0.preConnect == c.preConnect
    ensures h.ConfigDone? ==> r.0.codec == (if IsDefined(a) then c.codec else Msgpack)
    ensures !h.ConfigDone? ==> r.0.codec == c.codec
    ensures h.UnfetchDone? ==> r.0.dispatchers == c.dispatchers - {h.fetchKey}
    ensures !h.UnfetchDone? ==> r.0.dispatchers == c.dispatchers
    ensures h.User? ==> r == (c.(events := c.events + [Called(h.f.tag, a, b)]), h.f.run(a, b))
  {
    match h
    case User(f) => CallOptional(c, Some(f), a, b)
    case ConfigDone(cb) =>
      CallOptional(if IsDefined(a) then c else c.(codec := Msgpack), cb, a, b)
    case UnfetchDone(key, cb) =>
      CallOptional(c.(dispatchers := c.dispatchers - {key}), cb, a, b)
  }

  /** `callbacks.onerror('Dispatching message failed', message, e)` */
  function Failed(c: Client, m: Msg): Client {
    c.(events := c.events + [DispatchFailed(m)])
  }

  /** `dispatchSingleMessage`: a message with a defined id calls that id's
      entry with `(error, result)` and then deletes it; any other message
      calls the entry named by its method with its params. A missing entry
      or a throwing one is reported through `onerror` and goes no further. */
  function DispatchSingle(c: Client, m: Msg): (c': Client)
    ensures c'.outbox == c.outbox && c'.open == c.open && c'.lastId == c.lastId
    ensures c'.fetchCount == c.fetchCount && c'.preConnect == c.preConnect
    ensures |c.events| < |c'.events| || c'.events == c.events
    ensures var key := if IsDefined(m.id) then ToPropertyKey(m.id) else ToPropertyKey(m.verb);
      key !in c.dispatchers ==> c' == Failed(c, m)
    ensures IsDefined(m.id) && ToPropertyKey(m.id) in c.dispatchers ==>
      var key := ToPropertyKey(m.id);
      var r := Invoke(c, c.dispatchers[key], m.error, m.result);
      c' == if r.1.Some? then Failed(r.0, m) else r.0.(dispatchers := r.0.dispatchers - {key})
    ensures !IsDefined(m.id) && ToPropertyKey(m.verb) in c.dispatchers ==>
      var r := Invoke(c, c.dispatchers[ToPropertyKey(m.verb)], m.params, Undefined);
      c' == if r.1.Some? then Failed(r.0, m) else r.0
  {
    if IsDefined(m.id) then
      var key := ToPropertyKey(m.id);
      if key !in c.dispatchers then Failed(c, m)
      else
        var r := Invoke(c, c.dispatchers[key], m.error, m.result);
        if r.1.Some? then Failed(r.0, m) else r.0.(dispatchers := r.0.dispatchers - {key})
    else
      var key := ToPropertyKey(m.verb);
      if key !in c.dispatchers then Failed(c, m)
      else
        var r := Invoke(c, c.dispatchers[key], m.params, Undefined);
        if r.1.Some? then Failed(r.0, m) else r.0
  }

  /** The elements of an array frame, dispatched one after another. */
  function DispatchAll(c: Client, ms: seq<Msg>): (c': Client)
    ensures c'.outbox == c.outbox && c'.open == c.open && c'.lastId == c.lastId
    ensures c'.fetchCount == c.fetchCount && c'.preConnect == c.preConnect
    decreases |ms|
  {
    if |ms| == 0 then c else DispatchAll(DispatchSingle(c, ms[0]), ms[1..])
  }

  /** `ws.onmessage`: a frame that does not decode is dropped; an array is
      dispatched element by element; anything else is one message. Nothing
      is ever sent in answer. */
  function OnMessage(c: Client, frame: Engine.Inbound): (c': Client)
    ensures frame.Garbled? ==> c' == c
    ensures frame.One? ==> c' == DispatchSingle(c, frame.m)
    ensures frame.Many? ==> c' == DispatchAll(c, frame.ms)
    ensures c'.outbox == c.outbox && c'.preConnect == c.preConnect && c'.lastId == c.lastId
  {
    match frame
    case Garbled => c
    case One(m) => DispatchSingle(c, m)
    case Many(ms) => DispatchAll(c, ms)
  }

  // ---------------------------------------------------------------------------
  // setEncoding, fetch, unfetch

  const EncodingUnsupported: Value := Str("encoding unsupported")

  /** `instance.setEncoding(enc, callback)`: refuses anything but msgpack,
      and msgpack when the library is absent; otherwise asks the daemon,
      and the switch happens when the answer arrives without an error. */
  function SetEncoding(c: Client, enc: string, cb: Option<Fn>): (r: Result<Client>)
    ensures r.Throw? <==> enc != "msgpack" || !c.msgpackAvailable
    ensures r.Throw? ==> r.exc == EncodingUnsupported
    ensures r.Ok? ==>
      && r.value.codec == c.codec
      && Issued(c, r.value, Scheduler.Request(Num(c.lastId + 1), "config", Field("encoding", Str("msgpack"))))
      && r.value.dispatchers == c.dispatchers[IdKey(c.lastId + 1) := ConfigDone(cb)]
  {
    if enc != "msgpack" || !c.msgpackAvailable then Throw(EncodingUnsupported)
    else Ok(Request(c, "config", Field("encoding", Str("msgpack")), Some(ConfigDone(cb))))
  }

  /** `JSON.parse(JSON.stringify(undefined))` */
  const JsonSyntaxError: Value := Field("name", Str("SyntaxError"))
  /** Setting `id` on `null` */
  const NullTypeError: Value := Field("name", Str("TypeError"))

  /** The params a fetch sends: the JSON copy of the expression, with the
      fetch id when the copy is a plain object. On an array or a primitive
      the assignment is lost (arrays keep named properties out of JSON,
      primitives drop them). */
  function FetchParams(expr: Value, key: string): (r: Result<Value>)
    ensures r.Throw? <==> expr.Undefined? || expr.Null?
    ensures expr.Undefined? ==> r == Throw(JsonSyntaxError)
    ensures expr.Null? ==> r == Throw(NullTypeError)
    ensures r.Ok? && expr.Obj? ==>
      && r.value.Obj? && "id" in r.value.fields && r.value.fields["id"] == Str(key)
      && forall k :: k in expr.fields && k != "id" && !expr.fields[k].Undefined? ==>
           k in r.value.fields && r.value.fields[k] == JsonCopy(expr.fields[k])
    ensures r.Ok? && !expr.Obj? ==> r.value == JsonCopy(expr)
  {
    if expr.Undefined? then Throw(JsonSyntaxError)
    else
      var copy := JsonCopy(expr);
      if copy.Null? then Throw(NullTypeError)
      else if copy.Obj? then Ok(Obj(copy.fields["id" := Str(key)]))
      else Ok(copy)
  }

  /** `instance.fetch(expression, fetchcb, callback)`: takes the next fetch
      id (even when copying the expression then throws), registers `fetchcb`
      under it before asking the daemon, and returns the unfetch handle (the
      id). */
  function Fetch(c: Client, expr: Value, fetchcb: Fn, cb: Option<Fn>): (r: (Client, Result<string>))
    ensures r.0.fetchCount == c.fetchCount + 1
    ensures r.1.Throw? <==> expr.Undefined? || expr.Null?
    ensures r.1.Throw? ==> r.0 == c.(fetchCount := c.fetchCount + 1)
    ensures r.1.Ok? ==>
      && r.1.value == FetchKey(c.fetchCount)
      && FetchKey(c.fetchCount) in r.0.dispatchers
      && r.0.dispatchers[FetchKey(c.fetchCount)] == User(fetchcb)
      && (cb.Some? ==> IdKey(c.lastId + 1) in r.0.dispatchers && r.0.dispatchers[IdKey(c.lastId + 1)] == User(cb.value))
      && Issued(c, r.0, Scheduler.Request(NextId(c, cb.Some?), "fetch", FetchParams(expr, FetchKey(c.fetchCount)).value))
  {
    var key := FetchKey(c.fetchCount);
    var c1 := c.(fetchCount := c.fetchCount + 1);
    match FetchParams(expr, key)
    case Throw(e) => (c1, Throw(e))
    case Ok(params) =>
      FetchKeysApart(c.fetchCount, 0, c.lastId + 1);
      (Request(c1.(dispatchers := c1.dispatchers[key := User(fetchcb)]), "fetch", params, UserCallback(cb)), Ok(key))
  }

  /** The `unfetch` handle a fetch returns. */
  function Unfetch(c: Client, key: string, cb: Option<Fn>): (c': Client)
    ensures Issued(c, c', Scheduler.Request(Num(c.lastId + 1), "unfetch", Field("id", Str(key))))
    ensures c'.lastId == c.lastId + 1
    ensures c'.dispatchers == c.dispatchers[IdKey(c'.lastId) := UnfetchDone(key, cb)]
  {
    Request(c, "unfetch", Field("id", Str(key)), Some(UnfetchDone(key, cb)))
  }

  // ---------------------------------------------------------------------------
  // Properties

  /** A sequence of requests made by user code. */
  datatype JetCall = JetCall(verb: string, params: Value, cb: Option<JetHandler>)

  function RunRequests(c: Client, calls: seq<JetCall>): Client
    decreases |calls|
  {
    if |calls| == 0 then c
    else RunRequests(Request(c, calls[0].verb, calls[0].params, calls[0].cb), calls[1..])
  }

  /** The messages a sequence of requests produces, starting after id
      `lastId`. */
  function RequestMessages(calls: seq<JetCall>, lastId: nat): seq<Msg> {
    if |calls| == 0 then []
    else
      var next := if calls[0].cb.Some? then lastId + 1 else lastId;
      [Scheduler.Request(if calls[0].cb.Some? then Num(lastId + 1) else Undefined, calls[0].verb, calls[0].params)]
        + RequestMessages(calls[1..], next)
  }

  lemma EncodedAppend(a: seq<Msg>, b: seq<Msg>, codec: Codec)
    ensures Encoded(a + b, codec) == Encoded(a, codec) + Encoded(b, codec)
  {
  }

  /** Requests made while connecting are queued in order, and nothing is
      sent. */
  lemma {:induction false} QueuedInOrder(c: Client, calls: seq<JetCall>)
    requires !c.open
    ensures RunRequests(c, calls).preConnect == c.preConnect + RequestMessages(calls, c.lastId)
    ensures RunRequests(c, calls).outbox == c.outbox
    ensures !RunRequests(c, calls).open && RunRequests(c, calls).codec == c.codec
    decreases |calls|
  {
    if |calls| > 0 {
      var c1 := Request(c, calls[0].verb, calls[0].params, calls[0].cb);
      QueuedInOrder(c1, calls[1..]);
      var m0 := Scheduler.Request(NextId(c, calls[0].cb.Some?), calls[0].verb, calls[0].params);
      assert RequestMessages(calls, c.lastId) == [m0] + RequestMessages(calls[1..], c1.lastId);
    }
  }

  /** Requests made while open are sent in order with the codec in force,
      and nothing is queued. */
  lemma {:induction false} SentInOrder(c: Client, calls: seq<JetCall>)
    requires c.open
    ensures RunRequests(c, calls).outbox == c.outbox + Encoded(RequestMessages(calls, c.lastId), c.codec)
    ensures RunRequests(c, calls).preConnect == c.preConnect
    decreases |calls|
  {
    if |calls| > 0 {
      var c1 := Request(c, calls[0].verb, calls[0].params, calls[0].cb);
      SentInOrder(c1, calls[1..]);
      var m0 := Scheduler.Request(NextId(c, calls[0].cb.Some?), calls[0].verb, calls[0].params);
      var rest := RequestMessages(calls[1..], c1.lastId);
      assert RequestMessages(calls, c.lastId) == [m0] + rest;
      EncodedAppend([m0], rest, c.codec);
      assert Encoded([m0], c.codec) == [Wire(m0, c.codec)];
    }
  }

  /** Replaying the pre-connect queue puts on the wire exactly what the same
      requests would have sent had the socket been open from the start. */
  lemma ReplayMatchesDirectSend(c: Client, calls: seq<JetCall>)
    requires !c.open && c.preConnect == []
    ensures OnOpen(RunRequests(c, calls)).outbox == RunRequests(c.(open := true), calls).outbox
  {
    var ms := RequestMessages(calls, c.lastId);
    QueuedInOrder(c, calls);
    SentInOrder(c.(open := true), calls);
    assert RunRequests(c, calls).preConnect == ms by {
      assert c.preConnect + ms == ms;
    }
  }

  /** The queue replayed on open is never cleared: after the replay, a
      request goes straight to the socket and the queue keeps exactly what
      was queued before the socket opened. */
  lemma ReplayIsNotCleared(c: Client, verb: string, params: Value, cb: Option<JetHandler>)
    ensures var c2 := Request(OnOpen(c), verb, params, cb);
      && c2.preConnect == c.preConnect
      && c2.outbox == c.outbox + Encoded(c.preConnect, c.codec)
           + [Wire(Scheduler.Request(NextId(c, cb.Some?), verb, params), c.codec)]
  {
  }

  /** A response to a request made with a callback calls it once with
      `(error, result)`; a repeated response finds no entry and is reported
      through `onerror` instead. */
  lemma ResponseRoutedOnce(c: Client, verb: string, params: Value, f: Fn, m: Msg)
    requires m.id == Num(c.lastId + 1)
    requires f.run(m.error, m.result).None?
    ensures var c1 := Request(c, verb, params, Some(User(f)));
      var c2 := DispatchSingle(c1, m);
      && c2.events == c1.events + [Called(f.tag, m.error, m.result)]
      && c2.dispatchers == c.dispatchers - {IdKey(c.lastId + 1)}
      && DispatchSingle(c2, m).events == c2.events + [DispatchFailed(m)]
  {
  }

  /** A response whose id is `null` is routed by method, like a
      notification, not by id. */
  lemma NullIdRoutedByMethod(c: Client, m: Msg)
    requires m.id.Null? && ToPropertyKey(m.verb) in c.dispatchers
    ensures var r := Invoke(c, c.dispatchers[ToPropertyKey(m.verb)], m.params, Undefined);
      DispatchSingle(c, m) == if r.1.Some? then Failed(r.0, m) else r.0
  {
  }

  /** A callback that throws keeps its entry: the deletion after the call
      is skipped. */
  lemma ThrowingCallbackKeepsEntry(c: Client, f: Fn, m: Msg)
    requires IsDefined(m.id) && ToPropertyKey(m.id) in c.dispatchers
    requires c.dispatchers[ToPropertyKey(m.id)] == User(f)
    requires f.run(m.error, m.result).Some?
    ensures var c' := DispatchSingle(c, m);
      && c'.dispatchers == c.dispatchers
      && c'.events == c.events + [Called(f.tag, m.error, m.result), DispatchFailed(m)]
  {
  }

  /** An array frame is dispatched element by element, in order: splitting
      it anywhere and dispatching the parts one after the other is the same. */
  lemma {:induction false} DispatchAllSplits(c: Client, a: seq<Msg>, b: seq<Msg>)
    ensures DispatchAll(c, a + b) == DispatchAll(DispatchAll(c, a), b)
    decreases |a|
  {
    if |a| > 0 {
      assert (a + b)[0] == a[0];
      assert (a + b)[1..] == a[1..] + b;
      DispatchAllSplits(DispatchSingle(c, a[0]), a[1..], b);
    } else {
      assert a + b == b;
    }
  }

  /** A one-element array frame acts like the bare message. */
  lemma SingletonArrayIsBare(c: Client, m: Msg)
    ensures OnMessage(c, Engine.Many([m])) == OnMessage(c, Engine.One(m))
  {
    assert [m][1..] == [];
    assert DispatchAll(c, [m]) == DispatchAll(DispatchSingle(c, m), []);
  }

  /** Fetch ids are distinct, and no id a request is answered with can
      reach a fetch's entry. */
  lemma FetchKeysApart(n: nat, k: nat, id: int)
    ensures n != k ==> FetchKey(n) != FetchKey(k)
    ensures FetchKey(n) != ToPropertyKey(Num(id))
  {
    if n != k {
      NatToStringInjective(n, k);
      assert FetchKey(n)[1..] == NatToString(n);
      assert FetchKey(k)[1..] == NatToString(k);
    }
    if id >= 0 {
      PrefixedNotNumeric("f", n, id);
    } else {
      assert ToPropertyKey(Num(id))[0] == '-';
      assert FetchKey(n)[0] == 'f';
    }
  }

  /** After a fetch, the daemon's notifications (method = fetch id, no id)
      reach `fetchcb` with their params, and the entry stays. */
  lemma FetchNotificationsReachCallback(c: Client, expr: Value, fetchcb: Fn, cb: Option<Fn>, m: Msg)
    requires expr.Obj?
    requires !IsDefined(m.id) && m.verb == Str(FetchKey(c.fetchCount))
    requires fetchcb.run(m.params, Undefined).None?
    ensures var r := Fetch(c, expr, fetchcb, cb);
      && r.1 == Ok(FetchKey(c.fetchCount))
      && var c' := DispatchSingle(r.0, m);
         && c'.events == r.0.events + [Called(fetchcb.tag, m.params, Undefined)]
         && c'.dispatchers == r.0.dispatchers
  {
  }

  /** The answer to an unfetch, an error as much as a result, drops the
      fetch's entry and the unfetch's own, and forwards `(err, res)`. */
  lemma UnfetchDropsEntryOnAnyAnswer(c: Client, key: string, cb: Fn, m: Msg)
    requires m.id == Num(c.lastId + 1)
    requires key != IdKey(c.lastId + 1)
    requires cb.run(m.error, m.result).None?
    ensures var c1 := Unfetch(c, key, Some(cb));
      var c2 := DispatchSingle(c1, m);
      && key !in c2.dispatchers && IdKey(c.lastId + 1) !in c2.dispatchers
      && c2.events == c1.events + [Called(cb.tag, m.error, m.result)]
  {
  }

  /** The codec switches exactly when the config answer carries no error
      (`undefined` or `null`), and the callback sees the answer either way. */
  lemma ConfigAnswerSwitchesCodec(c: Client, cb: Fn, m: Msg)
    requires c.msgpackAvailable
    requires m.id == Num(c.lastId + 1)
    requires cb.run(m.error, m.result).None?
    ensures var c1 := SetEncoding(c, "msgpack", Some(cb)).value;
      var c2 := DispatchSingle(c1, m);
      && (c2.codec == Msgpack <==> !IsDefined(m.error) || c.codec == Msgpack)
      && c2.events == c1.events + [Called(cb.tag, m.error, m.result)]
  {
  }
}

=== FILE: js_values.dfy ===
/** JavaScript values as the peer sees them after decoding a frame, plus the
    few pieces of JavaScript semantics the protocol code leans on: truthiness,
    `typeof x !== 'undefined'`, property lookup, and the coercion of a value to
    an object key (which decides which table entry `table[x]` reaches).

    Numbers are modelled as integers; see README for what that leaves out. */
module JsValues {

  datatype Value =
    | Undefined
    | Null
    | Bool(b: bool)
    | Num(n: int)
    | Str(s: string)
    | Arr(items: seq<Value>)
    | Obj(fields: map<string, Value>)

  /** A value that can be thrown. `throw null` makes the error mapper itself
      throw, which this model does not follow (see README). */
  type Thrown = v: Value | !v.Null? witness Undefined

  /** The outcome of a JavaScript call that either returns or throws. */
  datatype Result<T> = Ok(value: T) | Throw(exc: Value)

  /** JavaScript truthiness: `undefined`, `null`, `false`, `0` and `''` are falsy. */
  predicate Truthy(v: Value) {
    match v
    case Undefined => false
    case Null => false
    case Bool(b) => b
    case Num(n) => n != 0
    case Str(s) => s != ""
    case _ => true
  }

  /** `typeof x !== 'undefined'`: `null` counts as defined. */
  predicate IsDef(v: Value): (b: bool)
    ensures v.Null? ==> b
    ensures Truthy(v) ==> b
    ensures v.Undefined? ==> !b
    ensures !b ==> !Truthy(v) && !HasProperties(v)
  {
    !v.Undefined?
  }

  /** `x instanceof Array`: an array, which `typeof` also calls an object. */
  predicate IsArr(v: Value): (b: bool)
    ensures v.Arr? ==> b
    ensures b ==> IsObjectTyped(v) && Truthy(v) && !v.Obj?
  {
    v.Arr?
  }

  /** `typeof x === 'object'`, which holds of `null` and of arrays too. */
  predicate IsObjectTyped(v: Value) {
    v.Obj? || v.Arr? || v.Null?
  }

  /** Values whose properties can be read without a TypeError. */
  predicate HasProperties(v: Value) {
    !v.Undefined? && !v.Null?
  }

  /** `v[key]` for a named (non-index) property. Only plain objects carry
      named properties in decoded JSON; on any other value the read yields
      `undefined`. */
  function Get(v: Value, key: string): (r: Value)
    requires HasProperties(v)
    ensures !v.Obj? ==> r == Undefined
    ensures v.Obj? && key !in v.fields ==> r == Undefined
  {
    if v.Obj? && key in v.fields then v.fields[key] else Undefined
  }

  /** `{k: v}` written as a literal object. */
  function Field(k: string, v: Value): Value {
    Obj(map[k := v])
  }

  // ---------------------------------------------------------------------------
  // Decimal strings

  predicate IsDigit(ch: char) {
    '0' <= ch <= '9'
  }

  predicate AllDigits(s: string) {
    forall i :: 0 <= i < |s| ==> IsDigit(s[i])
  }

  function DigitChar(d: nat): (ch: char)
    requires d < 10
    ensures IsDigit(ch) && ch as int - '0' as int == d
  {
    ('0' as int + d) as char
  }

  /** The decimal representation JavaScript gives a non-negative integer. */
  function NatToString(n: nat): (s: string)
    ensures |s| > 0 && AllDigits(s)
  {
    if n < 10 then [DigitChar(n)] else NatToString(n / 10) + [DigitChar(n % 10)]
  }

  function ParseDigits(s: string): nat
    requires AllDigits(s)
  {
    if |s| == 0 then 0
    else ParseDigits(s[..|s| - 1]) * 10 + (s[|s| - 1] as int - '0' as int)
  }

  /** Reading back a printed number gives the number. */
  lemma {:induction false} ParseNatToString(n: nat)
    ensures ParseDigits(NatToString(n)) == n
  {
    var s := NatToString(n);
    if n >= 10 {
      ParseNatToString(n / 10);
      assert s[..|s| - 1] == NatToString(n / 10);
    }
  }

  /** Distinct numbers print differently. */
  lemma NatToStringInjective(a: nat, b: nat)
    requires a != b
    ensures NatToString(a) != NatToString(b)
  {
    ParseNatToString(a);
    ParseNatToString(b);
  }

  /** A decimal string never starts with a letter, so prefixed ids such as
      `'f' + n` or `'__f__' + n` can never equal a printed number. */
  lemma PrefixedNotNumeric(prefix: string, n: nat, k: nat)
    requires |prefix| > 0 && !IsDigit(prefix[0])
    ensures prefix + NatToString(n) != NatToString(k)
  {
    var s := NatToString(k);
    assert IsDigit(s[0]);
    assert (prefix + NatToString(n))[0] == prefix[0];
  }

  /** The decimal representation JavaScript gives an integer. */
  function IntToString(n: int): string {
    if n >= 0 then NatToString(n) else "-" + NatToString(-n)
  }

  // ---------------------------------------------------------------------------
  // Object keys

  /** `String(x)` as used when `x` indexes an object (`table[x]`). An array
      joins its elements with commas, writing `null` and `undefined` as the
      empty string. */
  function ToPropertyKey(v: Value): string {
    match v
    case Undefined => "undefined"
    case Null => "null"
    case Bool(b) => if b then "true" else "false"
    case Num(n) => IntToString(n)
    case Str(s) => s
    case Obj(_) => "[object Object]"
    case Arr(items) =>
      JoinWithCommas(seq(|items|, i requires 0 <= i < |items| =>
        if items[i].Undefined? || items[i].Null? then "" else ToPropertyKey(items[i])))
  }

  function JoinWithCommas(parts: seq<string>): string {
    if |parts| == 0 then ""
    else if |parts| == 1 then parts[0]
    else parts[0] + "," + JoinWithCommas(parts[1..])
  }

  /** Which numeric correlation id, if any, `table[v]` reaches in a table
      whose keys are request ids: the key must be the canonical decimal
      spelling of a number (`'1'` reaches id 1, `'01'` does not). */
  function ResponseSlot(v: Value): (r: Option<nat>)
    ensures r.Some? ==> NatToString(r.value) == ToPropertyKey(v)
  {
    var key := ToPropertyKey(v);
    if AllDigits(key) && |key| > 0 && NatToString(ParseDigits(key)) == key
    then Some(ParseDigits(key))
    else None
  }

  datatype Option<T> = None | Some(value: T)

  /** A numeric id, and its decimal string, both reach the id's slot. */
  lemma ResponseSlotOfId(n: nat)
    ensures ResponseSlot(Num(n)) == Some(n)
    ensures ResponseSlot(Str(NatToString(n))) == Some(n)
  {
    ParseNatToString(n);
  }

  /** A slot is reached exactly by the values whose key is the id's
      decimal spelling. */
  lemma ResponseSlotExact(v: Value, n: nat)
    ensures ResponseSlot(v) == Some(n) <==> ToPropertyKey(v) == NatToString(n)
  {
    ParseNatToString(n);
  }

  // ---------------------------------------------------------------------------
  // JSON round trip

  /** `JSON.parse(JSON.stringify(v))` for a value that is not itself
      `undefined`: object properties holding `undefined` disappear and array
      elements holding `undefined` become `null`. */
  function JsonCopy(v: Value): (r: Value)
    ensures v.Obj? <==> r.Obj?
    ensures v.Arr? <==> r.Arr?
    ensures v.Undefined? <==> r.Undefined?
    ensures !v.Obj? && !v.Arr? ==> r == v
    ensures v.Obj? ==> forall k :: k in r.fields <==> k in v.fields && !v.fields[k].Undefined?
    ensures v.Arr? ==> |r.items| == |v.items|
  {
    match v
    case Obj(f) => Obj(map k | k in f && !f[k].Undefined? :: JsonCopy(f[k]))
    case Arr(items) =>
      Arr(seq(|items|, i requires 0 <= i < |items| =>
        if items[i].Undefined? then Null else JsonCopy(items[i])))
    case _ => v
  }

  /** A copy is already in JSON's image: copying it again changes nothing,
      so what the copy holds is what the wire carries. */
  lemma {:induction false} JsonCopyIdempotent(v: Value)
    ensures JsonCopy(JsonCopy(v)) == JsonCopy(v)
  {
    match v
    case Obj(f) =>
      var g := JsonCopy(v).fields;
      forall k | k in g
        ensures JsonCopy(g[k]) == g[k]
      {
        JsonCopyIdempotent(f[k]);
      }
      assert JsonCopy(JsonCopy(v)).fields == g;
    case Arr(items) =>
      var copied := JsonCopy(v).items;
      forall i | 0 <= i < |copied|
        ensures !copied[i].Undefined? && JsonCopy(copied[i]) == copied[i]
      {
        if !items[i].Undefined? {
          JsonCopyIdempotent(items[i]);
        }
      }
      assert JsonCopy(JsonCopy(v)).items == copied;
    case _ =>
  }
}

=== FILE: peer.dfy ===
/** The resource façade of `peer.js` (`j.add`, `j.remove`, `j.state`,
    `j.method`, `j.fetch` and the handles they return), built on the engine
    of `src/jsonrpc.js`.

    A descriptor's `value` lives in the connection's `values` table under the
    descriptor's path, so two live descriptors with the same path share it. */
module Peer {
  import opened JsValues
  import opened Scheduler
  import Engine
  import Handlers
  import Util

  /** What a state or method handle closes over: the descriptor's path and
      the dispatcher built for it. */
  datatype Handle = Handle(path: string, dispatch: Dispatcher)

  datatype StateImpl =
    | Setter(setter: Value -> Outcome)
    | AsyncSetter(asyncSetter: Value -> Option<Thrown>)
    | NoSetter

  datatype StateDesc = StateDesc(path: string, value: Value, impl: StateImpl)

  datatype MethodImpl =
    | Caller(call: CallArgs -> Outcome)
    | AsyncCaller(asyncCall: CallArgs -> Option<Thrown>)
    | NoCaller

  datatype MethodDesc = MethodDesc(path: string, value: Value, impl: MethodImpl)

  /** What reading `callbacks.success` off a missing callbacks object, or
      calling a missing `success`, throws. */
  const NoSuccessCallback: Value := Field("message", Str("callbacks.success is not a function"))

  /** The descriptor value a handle currently holds. */
  function CachedValue(c: Connection, path: string): Value {
    if path in c.values then c.values[path] else Undefined
  }

  /** `ref.isAdded()`: a dispatcher is installed under the path, so an
      inbound request naming the path reaches one. */
  predicate IsAdded(c: Connection, h: Handle): (b: bool)
    ensures b <==> ToPropertyKey(Str(h.path)) in c.requests
  {
    Engine.HasRequestDispatcher(c, h.path)
  }

  /** `c'` carries `m` where `service` puts it: queued while a flush is due,
      sent bare otherwise. */
  predicate Issued(c: Connection, c': Connection, m: Msg) {
    && (c.willFlush ==> c'.pending == c.pending + [m] && c'.outbox == c.outbox)
    && (!c.willFlush ==> c'.pending == c.pending && c'.outbox == c.outbox + [Single(m)])
  }

  // ---------------------------------------------------------------------------
  // add / remove

  /** The params of an `add` request. */
  function AddParams(c: Connection, path: string): Value {
    Obj(map["path" := Str(path), "value" := CachedValue(c, path)])
  }

  /** `j.add(desc, dispatch, callbacks)`: the dispatcher is installed by the
      add's completion, and only when it reports success. */
  function Add(c: Connection, h: Handle, cbs: Option<Callbacks>): (r: Result<Connection>)
    ensures c.closed <==> r.Throw?
    ensures r.Ok? ==> r.value.values == c.values
    ensures r.Ok? && cbs.Some? ==>
      && r.value.requests == c.requests
      && r.value.responses == c.responses[r.value.lastId := Pending(Some(Assign(h.path, h.dispatch)), cbs.value)]
    ensures r.Ok? && cbs.None? ==> r.value.requests == c.requests[h.path := h.dispatch]
    ensures r.Ok? ==> Issued(c, r.value, Engine.ServiceMessage(c, "add", AddParams(c, h.path), cbs))
  {
    Engine.Service(c, "add", AddParams(c, h.path), Some(Assign(h.path, h.dispatch)), cbs)
  }

  /** `j.remove(path, callbacks)`: the dispatcher is removed by the remove's
      completion, whether it reports success or failure. */
  function Remove(c: Connection, path: string, cbs: Option<Callbacks>): (r: Result<Connection>)
    ensures c.closed <==> r.Throw?
    ensures r.Ok? && cbs.Some? ==>
      && r.value.requests == c.requests
      && r.value.responses == c.responses[r.value.lastId := Pending(Some(Uninstall(path)), cbs.value)]
    ensures r.Ok? && cbs.None? ==> r.value.requests == c.requests - {path}
    ensures r.Ok? ==> Issued(c, r.value, Engine.ServiceMessage(c, "remove", Field("path", Str(path)), cbs))
    ensures r.Ok? ==> r.value.lastId == c.lastId + (if cbs.Some? then 1 else 0)
  {
    Engine.Service(c, "remove", Field("path", Str(path)), Some(Uninstall(path)), cbs)
  }

  /** `ref.remove(callbacks)`: a handle that is not added answers its own
      `success` at once, without a request. */
  function HandleRemove(c: Connection, h: Handle, cbs: Option<Callbacks>): (r: Result<Connection>)
    ensures IsAdded(c, h) ==> r == Remove(c, h.path, cbs)
    ensures !IsAdded(c, h) ==>
      if cbs.Some? && cbs.value.hasSuccess
      then r == Ok(c.(events := c.events + [Succeeded(cbs.value.tag, Undefined)]))
      else r == Throw(NoSuccessCallback)
  {
    if IsAdded(c, h) then Remove(c, h.path, cbs)
    else if cbs.Some? && cbs.value.hasSuccess then Ok(c.(events := c.events + [Succeeded(cbs.value.tag, Undefined)]))
    else Throw(NoSuccessCallback)
  }

  /** `ref.add(value, callbacks)`: an added handle first answers `success`,
      then (as for one not added) a defined `value` replaces the cached value
      and the add is issued again. */
  function HandleAdd(c: Connection, h: Handle, value: Value, cbs: Option<Callbacks>): (r: Result<Connection>)
    ensures IsAdded(c, h) && !(cbs.Some? && cbs.value.hasSuccess) ==> r == Throw(NoSuccessCallback)
    ensures !(IsAdded(c, h) && !(cbs.Some? && cbs.value.hasSuccess)) ==> (c.closed <==> r.Throw?)
    ensures r.Ok? ==> IsDef(value) ==> r.value.values == c.values[h.path := value]
    ensures r.Ok? ==> !IsDef(value) ==> r.value.values == c.values
    ensures r.Ok? && IsAdded(c, h) ==>
      |r.value.events| > |c.events| && r.value.events[|c.events|] == Succeeded(cbs.value.tag, Undefined)
    // the add is issued again, carrying the (possibly new) cached value
    ensures r.Ok? ==> Issued(c, r.value, Engine.ServiceMessage(c, "add", AddParams(r.value, h.path), cbs))
    ensures r.Ok? && cbs.Some? ==>
      && r.value.requests == c.requests && r.value.lastId == c.lastId + 1
      && r.value.responses == c.responses[r.value.lastId := Pending(Some(Assign(h.path, h.dispatch)), cbs.value)]
    ensures r.Ok? && cbs.None? ==> r.value.requests == c.requests[h.path := h.dispatch]
  {
    var pre :=
      if !IsAdded(c, h) then Ok(c)
      else if cbs.Some? && cbs.value.hasSuccess then Ok(c.(events := c.events + [Succeeded(cbs.value.tag, Undefined)]))
      else Throw(NoSuccessCallback);
    match pre
    case Throw(e) => Throw(e)
    case Ok(c1) =>
      var c2 := if IsDef(value) then c1.(values := c1.values[h.path := value]) else c1;
      Add(c2, h, cbs)
  }

  // ---------------------------------------------------------------------------
  // state / method

  function StateDispatcher(desc: StateDesc): (d: Dispatcher)
    ensures (d.SyncSet? || d.AsyncSet? || d.ReadOnly?) && d.path == desc.path
    ensures desc.impl.NoSetter? <==> d.ReadOnly?
  {
    match desc.impl
    case Setter(setter) => SyncSet(desc.path, setter)
    case AsyncSetter(asyncSetter) => AsyncSet(desc.path, asyncSetter)
    case NoSetter => ReadOnly(desc.path)
  }

  /** `j.state(desc, callbacks)`: builds the dispatcher from the descriptor,
      caches its value and adds it. */
  function State(c: Connection, desc: StateDesc, cbs: Option<Callbacks>): (r: Result<(Connection, Handle)>)
    ensures c.closed <==> r.Throw?
    ensures r.Ok? ==>
      var (c', h) := r.value;
      && h.path == desc.path
      && (desc.impl.NoSetter? <==> h.dispatch.ReadOnly?)
      && CachedValue(c', desc.path) == desc.value
      && Issued(c, c', Engine.ServiceMessage(c, "add", AddParams(c', desc.path), cbs))
      && (cbs.Some? ==> IsAdded(c', h) == IsAdded(c, h))
      && (cbs.Some? ==>
            && c'.lastId == c.lastId + 1
            && c'.responses == c.responses[c'.lastId := Pending(Some(Assign(desc.path, h.dispatch)), cbs.value)])
      && (cbs.None? ==> IsAdded(c', h) && c'.requests[desc.path] == h.dispatch)
  {
    var h := Handle(desc.path, StateDispatcher(desc));
    var c1 := c.(values := c.values[desc.path := desc.value]);
    match Add(c1, h, cbs)
    case Throw(e) => Throw(e)
    case Ok(c2) => Ok((c2, h))
  }

  /** What `j.method` throws for a descriptor with neither `call` nor
      `callAsync`. */
  function InvalidMethodDesc(path: string): Value {
    Str("invalid method desc" + (if path == "" then "?" else path))
  }

  /** `j.method(desc, callbacks)`. */
  function Method(c: Connection, desc: MethodDesc, cbs: Option<Callbacks>): (r: Result<(Connection, Handle)>)
    ensures desc.impl.NoCaller? ==> r == Throw(InvalidMethodDesc(desc.path))
    ensures !desc.impl.NoCaller? ==> (c.closed <==> r.Throw?)
    ensures r.Ok? ==>
      var (c', h) := r.value;
      && h.path == desc.path
      && (desc.impl.Caller? ==> h.dispatch == SyncCall(desc.path, desc.impl.call))
      && (desc.impl.AsyncCaller? ==> h.dispatch == AsyncCall(desc.path, desc.impl.asyncCall))
      && CachedValue(c', desc.path) == desc.value
      && Issued(c, c', Engine.ServiceMessage(c, "add", AddParams(c', desc.path), cbs))
      && (cbs.Some? ==>
            && c'.requests == c.requests
            && c'.responses == c.responses[c'.lastId := Pending(Some(Assign(desc.path, h.dispatch)), cbs.value)])
      && (cbs.None? ==> c'.requests == c.requests[desc.path := h.dispatch])
  {
    match desc.impl
    case NoCaller => Throw(InvalidMethodDesc(desc.path))
    case Caller(call) => AddMethod(c, desc, SyncCall(desc.path, call), cbs)
    case AsyncCaller(asyncCall) => AddMethod(c, desc, AsyncCall(desc.path, asyncCall), cbs)
  }

  function AddMethod(c: Connection, desc: MethodDesc, d: Dispatcher, cbs: Option<Callbacks>): Result<(Connection, Handle)> {
    var h := Handle(desc.path, d);
    var c1 := c.(values := c.values[desc.path := desc.value]);
    match Add(c1, h, cbs)
    case Throw(e) => Throw(e)
    case Ok(c2) => Ok((c2, h))
  }

  /** `ref.value(x)` of a state handle: with `x` undefined it reads the
      cached value; otherwise it caches `x`, queues a `change` and flushes
      unless a dispatch cycle or batch is under way. */
  function ValueCall(c: Connection, h: Handle, x: Value): (r: (Connection, Value))
    ensures !IsDef(x) ==> r == (c, CachedValue(c, h.path))
    ensures IsDef(x) ==>
      && r.1 == Undefined
      && CachedValue(r.0, h.path) == x
      && r.0.values == c.values[h.path := x]
      && Delivered(r.0) == Delivered(c) + [Change(h.path, x)]
      && (c.willFlush ==> r.0.outbox == c.outbox && r.0.willFlush)
      && (!c.willFlush ==> r.0.pending == [] && |r.0.outbox| == |c.outbox| + 1)
      && r.0.requests == c.requests && r.0.responses == c.responses && r.0.closed == c.closed
  {
    if !IsDef(x) then (c, CachedValue(c, h.path))
    else
      var c1 := Queue(c.(values := c.values[h.path := x]), Change(h.path, x));
      if !c1.willFlush then FlushDeliversPending(c1); (Flush(c1), Undefined) else (c1, Undefined)
  }

  /** Reading a state right after pushing `x` gives `x`. */
  lemma ValueReadsBackPush(c: Connection, h: Handle, x: Value)
    requires IsDef(x)
    ensures ValueCall(ValueCall(c, h, x).0, h, Undefined).1 == x
  {
  }

  // ---------------------------------------------------------------------------
  // Client verbs

  /** `j.call(path, args, callbacks)`: missing arguments become `[]`. */
  function CallRemote(c: Connection, path: string, args: Value, cbs: Option<Callbacks>): (r: Result<Connection>)
    ensures c.closed <==> r.Throw?
    ensures r.Ok? ==>
      var m := Engine.ServiceMessage(c, "call", Obj(map["path" := Str(path), "args" := if Truthy(args) then args else Arr([])]), cbs);
      && Truthy(Get(m.params, "args"))
      && (Truthy(args) ==> Get(m.params, "args") == args)
      && Get(m.params, "path") == Str(path)
      && Issued(c, r.value, m)
  {
    Engine.Service(c, "call", Obj(map["path" := Str(path), "args" := if Truthy(args) then args else Arr([])]), None, cbs)
  }

  /** `j.set(path, value, callbacks)`. */
  function SetRemote(c: Connection, path: string, value: Value, cbs: Option<Callbacks>): (r: Result<Connection>)
    ensures c.closed <==> r.Throw?
    ensures r.Ok? ==>
      var m := Engine.ServiceMessage(c, "set", Obj(map["path" := Str(path), "value" := value]), cbs);
      && Get(m.params, "path") == Str(path) && Get(m.params, "value") == value
      && Issued(c, r.value, m)
  {
    Engine.Service(c, "set", Obj(map["path" := Str(path), "value" := value]), None, cbs)
  }

  /** A remote call with callbacks is answered through them: the daemon's
      response reaches `success` with the result or `error` with the error,
      its entry is gone and the dispatch table is untouched. */
  lemma CallRemoteAnsweredByResponse(c: Connection, path: string, args: Value, cbs: Callbacks, m: Msg)
    requires !c.closed && Valid(c)
    requires ResponseSlot(m.id) == Some(c.lastId + 1)
    requires IsDef(m.result) || IsDef(m.error)
    ensures var r := CallRemote(c, path, args, Some(cbs));
      && r.Ok?
      && var c2 := Engine.DispatchResponse(r.value, m);
         && c2.responses == c.responses && c2.requests == c.requests
         && c2.events == r.value.events
              + (if IsDef(m.result) then Engine.CallbackEvents(cbs, true, m.result) else Engine.CallbackEvents(cbs, false, m.error))
  {
    var params := Obj(map["path" := Str(path), "args" := if Truthy(args) then args else Arr([])]);
    Engine.RequestResolvedByItsResponse(c, "call", params, None, cbs, m);
  }

  /** A remote set with callbacks is answered through them in the same way. */
  lemma SetRemoteAnsweredByResponse(c: Connection, path: string, value: Value, cbs: Callbacks, m: Msg)
    requires !c.closed && Valid(c)
    requires ResponseSlot(m.id) == Some(c.lastId + 1)
    requires IsDef(m.result) || IsDef(m.error)
    ensures var r := SetRemote(c, path, value, Some(cbs));
      && r.Ok?
      && var c2 := Engine.DispatchResponse(r.value, m);
         && c2.responses == c.responses && c2.requests == c.requests
         && c2.events == r.value.events
              + (if IsDef(m.result) then Engine.CallbackEvents(cbs, true, m.result) else Engine.CallbackEvents(cbs, false, m.error))
  {
    Engine.RequestResolvedByItsResponse(c, "set", Obj(map["path" := Str(path), "value" := value]), None, cbs, m);
  }

  // ---------------------------------------------------------------------------
  // fetch

  /** What a fetch handle closes over. */
  datatype FetchRef = FetchRef(id: string, params: Value, sorted: bool, notify: FetchArgs -> Option<Thrown>)

  /** The dispatcher a fetch handle installs. */
  function FetcherOf(f: FetchRef): Dispatcher {
    Fetcher(f.id, f.sorted, f.notify)
  }

  /** The dispatcher-table key of the n-th fetch. */
  function FetchKey(n: nat): string {
    "__f__" + NatToString(n)
  }

  /** What reading `params.sort` off `undefined` or `null` throws. */
  const SortOfNothing: Value := Field("message", Str("Cannot read property 'sort' of undefined or null"))

  /** Whether `params.sort` is defined: an array inherits
      `Array.prototype.sort`, a plain object has it only as its own
      property, and strings, numbers and booleans have none. */
  predicate Sorting(spec: Value): (b: bool)
    requires HasProperties(spec)
    ensures spec.Arr? ==> b
    ensures spec.Obj? ==> (b <==> "sort" in spec.fields && !spec.fields["sort"].Undefined?)
    ensures spec.Str? || spec.Num? || spec.Bool? ==> !b
  {
    spec.Arr? || IsDef(Get(spec, "sort"))
  }

  /** A bare string fetches the paths containing it. */
  function NormalizeFetch(spec: Value): (r: Value)
    ensures spec.Str? ==> r == Field("path", Field("contains", spec))
    ensures !spec.Str? ==> r == spec
  {
    if spec.Str? then Field("path", Field("contains", spec)) else spec
  }

  /** The params a fetch sends: the normalised spec with the fetch id. The
      id assignment is lost on values that are not plain objects: an array
      keeps named properties out of JSON and a primitive drops them. */
  function FetchParams(spec: Value, key: string): (r: Value)
    ensures (spec.Str? || spec.Obj?) <==> r.Obj?
    ensures r.Obj? ==>
      && Get(r, "id") == Str(key)
      && forall k :: k in NormalizeFetch(spec).fields && k != "id" ==>
           k in r.fields && r.fields[k] == NormalizeFetch(spec).fields[k]
    ensures !r.Obj? ==> r == spec
  {
    var p := NormalizeFetch(spec);
    if p.Obj? then Obj(p.fields["id" := Str(key)]) else p
  }

  /** `j.fetch(params, f, callbacks)` with the fetch dispatcher installed by
      an `Install` completion (`installAlways`) or an `Assign` one. Reading
      `params.sort` throws on `undefined` and `null` before anything
      happens; after that the id counter advances even when the request
      throws. */
  function IssueFetch(c: Connection, spec: Value, notify: FetchArgs -> Option<Thrown>, cbs: Option<Callbacks>, installAlways: bool): (r: (Connection, Result<FetchRef>))
    ensures !HasProperties(spec) ==> r == (c, Throw(SortOfNothing))
    ensures HasProperties(spec) ==>
      && r.0.fetchCount == c.fetchCount + 1
      && (r.1.Throw? <==> c.closed || (cbs.Some? && (spec.Num? || spec.Bool?)))
    // a number or boolean keeps no `id`, and then `service` cannot copy the timeout into it
    ensures HasProperties(spec) && !c.closed && cbs.Some? && (spec.Num? || spec.Bool?) ==>
      r == (c.(fetchCount := c.fetchCount + 1), Throw(Engine.TimeoutOnPrimitive))
    ensures r.1.Ok? ==>
      && r.1.value == FetchRef(FetchKey(c.fetchCount), FetchParams(spec, FetchKey(c.fetchCount)), Sorting(spec), notify)
      && var d := FetcherOf(r.1.value);
         var comp := if installAlways then Install(FetchKey(c.fetchCount), d) else Assign(FetchKey(c.fetchCount), d);
         && (cbs.Some? ==> r.0.requests == c.requests
                           && r.0.responses == c.responses[r.0.lastId := Pending(Some(comp), cbs.value)])
         && (cbs.None? ==> r.0.requests == c.requests[FetchKey(c.fetchCount) := d])
         && Issued(c, r.0, Engine.ServiceMessage(c, "fetch", FetchParams(spec, FetchKey(c.fetchCount)), cbs))
  {
    if !HasProperties(spec) then (c, Throw(SortOfNothing))
    else
      var key := FetchKey(c.fetchCount);
      var sorted := Sorting(spec);
      var params := FetchParams(spec, key);
      var c1 := c.(fetchCount := c.fetchCount + 1);
      var d := Fetcher(key, sorted, notify);
      var comp := if installAlways then Install(key, d) else Assign(key, d);
      match Engine.Service(c1, "fetch", params, Some(comp), cbs)
      case Throw(e) => (c1, Throw(e))
      case Ok(c2) => (c2, Ok(FetchRef(key, params, sorted, notify)))
  }

  /** `j.fetch` as written: the fetch dispatcher is installed when the fetch
      completes, whether it succeeded or failed. */
  function FetchAsWritten(c: Connection, spec: Value, notify: FetchArgs -> Option<Thrown>, cbs: Option<Callbacks>): (r: (Connection, Result<FetchRef>))
    ensures !HasProperties(spec) ==> r.0 == c && r.1.Throw?
    ensures r.1.Ok? && cbs.Some? ==>
      r.0.lastId in r.0.responses && r.0.responses[r.0.lastId].complete == Some(Install(r.1.value.id, FetcherOf(r.1.value)))
    ensures r.1.Ok? && cbs.None? ==> IsFetching(r.0, r.1.value)
  {
    IssueFetch(c, spec, notify, cbs, true)
  }

  /** `j.fetch` as evidently intended: the fetch dispatcher is installed only
      when the fetch succeeds, as `j.add` does for states and methods. */
  function Fetch(c: Connection, spec: Value, notify: FetchArgs -> Option<Thrown>, cbs: Option<Callbacks>): (r: (Connection, Result<FetchRef>))
    ensures !HasProperties(spec) ==> r.0 == c && r.1.Throw?
    ensures r.1.Ok? && cbs.Some? ==>
      r.0.lastId in r.0.responses && r.0.responses[r.0.lastId].complete == Some(Assign(r.1.value.id, FetcherOf(r.1.value)))
    ensures r.1.Ok? && cbs.None? ==> IsFetching(r.0, r.1.value)
  {
    IssueFetch(c, spec, notify, cbs, false)
  }

  /** `ref.isFetching()`: a dispatcher is installed under the fetch id, so
      the daemon's notifications naming the id reach one. */
  predicate IsFetching(c: Connection, f: FetchRef): (b: bool)
    ensures b <==> ToPropertyKey(Str(f.id)) in c.requests
  {
    Engine.HasRequestDispatcher(c, f.id)
  }

  /** `ref.unfetch(callbacks)`: the fetch dispatcher is removed when the
      unfetch completes. */
  function Unfetch(c: Connection, f: FetchRef, cbs: Option<Callbacks>): (r: Result<Connection>)
    ensures c.closed <==> r.Throw?
    ensures r.Ok? && cbs.None? ==> !IsFetching(r.value, f)
    ensures r.Ok? && cbs.Some? ==>
      && r.value.requests == c.requests
      && r.value.responses == c.responses[r.value.lastId := Pending(Some(Uninstall(f.id)), cbs.value)]
    ensures r.Ok? ==> Issued(c, r.value, Engine.ServiceMessage(c, "unfetch", Field("id", Str(f.id)), cbs))
  {
    Engine.Service(c, "unfetch", Field("id", Str(f.id)), Some(Uninstall(f.id)), cbs)
  }

  /** `ref.fetch(callbacks)`: fetch again with the params and id of the
      original fetch, under the given kind of completion. */
  function IssueRefetch(c: Connection, f: FetchRef, cbs: Option<Callbacks>, installAlways: bool): (r: Result<Connection>)
    ensures r.Throw? <==> c.closed || (cbs.Some? && !Engine.Extensible(f.params))
    ensures r.Ok? ==>
      && r.value.fetchCount == c.fetchCount
      && Issued(c, r.value, Engine.ServiceMessage(c, "fetch", f.params, cbs))
      && var d := FetcherOf(f);
         var comp := if installAlways then Install(f.id, d) else Assign(f.id, d);
         && (cbs.Some? ==> r.value.requests == c.requests
                           && r.value.responses == c.responses[r.value.lastId := Pending(Some(comp), cbs.value)])
         && (cbs.None? ==> r.value.requests == c.requests[f.id := d])
  {
    var d := FetcherOf(f);
    Engine.Service(c, "fetch", f.params, Some(if installAlways then Install(f.id, d) else Assign(f.id, d)), cbs)
  }

  /** `ref.fetch` as written: like `j.fetch`, it installs the fetcher when
      the fetch completes, whether it succeeded or failed. */
  function RefetchAsWritten(c: Connection, f: FetchRef, cbs: Option<Callbacks>): (r: Result<Connection>)
    ensures r.Throw? <==> c.closed || (cbs.Some? && !Engine.Extensible(f.params))
    ensures r.Ok? && cbs.Some? ==>
      r.value.lastId in r.value.responses
      && r.value.responses[r.value.lastId].complete == Some(Install(f.id, FetcherOf(f)))
    ensures r.Ok? && cbs.None? ==> IsFetching(r.value, f)
  {
    IssueRefetch(c, f, cbs, true)
  }

  /** `ref.fetch` as evidently intended: the fetcher is installed only when
      the fetch succeeds. */
  function Refetch(c: Connection, f: FetchRef, cbs: Option<Callbacks>): (r: Result<Connection>)
    ensures r.Throw? <==> c.closed || (cbs.Some? && !Engine.Extensible(f.params))
    ensures r.Ok? && cbs.Some? ==>
      r.value.lastId in r.value.responses
      && r.value.responses[r.value.lastId].complete == Some(Assign(f.id, FetcherOf(f)))
    ensures r.Ok? && cbs.None? ==> IsFetching(r.value, f)
  {
    IssueRefetch(c, f, cbs, false)
  }

  // ---------------------------------------------------------------------------
  // Lifecycle properties

  /** Successive fetches get different ids. */
  lemma FetchIdsDistinct(c: Connection, spec1: Value, spec2: Value, n1: FetchArgs -> Option<Thrown>,
                          n2: FetchArgs -> Option<Thrown>, cbs1: Option<Callbacks>, cbs2: Option<Callbacks>)
    requires !c.closed
    requires HasProperties(spec1) && HasProperties(spec2)
    ensures var r1 := Fetch(c, spec1, n1, cbs1);
      var r2 := Fetch(r1.0, spec2, n2, cbs2);
      r1.1.Ok? && r2.1.Ok? ==> r1.1.value.id != r2.1.value.id
  {
    NatToStringInjective(c.fetchCount, c.fetchCount + 1);
    assert FetchKey(c.fetchCount)[5..] == NatToString(c.fetchCount);
    assert FetchKey(c.fetchCount + 1)[5..] == NatToString(c.fetchCount + 1);
  }

  /** An add issued with callbacks leaves the handle as it was until the
      answer arrives; a result installs the dispatcher, an error does not. */
  lemma AddInstallsOnSuccessOnly(c: Connection, desc: StateDesc, cbs: Callbacks, m: Msg)
    requires !c.closed && Valid(c)
    requires ResponseSlot(m.id) == Some(c.lastId + 1)
    ensures var (c1, h) := State(c, desc, Some(cbs)).value;
      var c2 := Engine.DispatchResponse(c1, m);
      && IsAdded(c1, h) == IsAdded(c, h)
      && (IsDef(m.result) ==> IsAdded(c2, h) && c2.requests[h.path] == h.dispatch)
      && (!IsDef(m.result) ==> IsAdded(c2, h) == IsAdded(c, h))
  {
  }

  /** A remove issued with callbacks uninstalls the dispatcher once answered,
      with a result or with an error. */
  lemma RemoveUninstallsOnAnswer(c: Connection, h: Handle, cbs: Callbacks, m: Msg)
    requires !c.closed && Valid(c) && IsAdded(c, h)
    requires ResponseSlot(m.id) == Some(c.lastId + 1)
    requires IsDef(m.result) || IsDef(m.error)
    ensures var c1 := HandleRemove(c, h, Some(cbs)).value;
      IsAdded(c1, h) && !IsAdded(Engine.DispatchResponse(c1, m), h)
  {
  }

  /** Removing a handle that is not added makes no round trip: nothing is
      queued or sent and no id is used. */
  lemma RemoveNotAddedNoRoundTrip(c: Connection, h: Handle, cbs: Callbacks)
    requires !IsAdded(c, h) && cbs.hasSuccess
    ensures var r := HandleRemove(c, h, Some(cbs));
      && r.Ok?
      && r.value.pending == c.pending && r.value.outbox == c.outbox
      && r.value.lastId == c.lastId && r.value.responses == c.responses
      && r.value.events == c.events + [Succeeded(cbs.tag, Undefined)]
  {
  }

  /** Finding, as written: a fetch the daemon rejects still leaves the
      handle fetching. */
  lemma FailedFetchStillFetching(c: Connection, spec: Value, notify: FetchArgs -> Option<Thrown>, cbs: Callbacks, m: Msg)
    requires !c.closed && Valid(c)
    requires HasProperties(spec)
    requires ResponseSlot(m.id) == Some(c.lastId + 1)
    requires !IsDef(m.result) && IsDef(m.error)
    ensures var r := FetchAsWritten(c, spec, notify, Some(cbs));
      && (r.1.Ok? <==> !(spec.Num? || spec.Bool?))
      && (r.1.Ok? ==> IsFetching(Engine.DispatchResponse(r.0, m), r.1.value))
  {
  }

  /** Corrected: once the fetch is answered, the handle is fetching exactly
      when the answer was a result (for a fresh fetch id). */
  lemma FetchingIffFetchSucceeded(c: Connection, spec: Value, notify: FetchArgs -> Option<Thrown>, cbs: Callbacks, m: Msg)
    requires !c.closed && Valid(c)
    requires HasProperties(spec)
    requires FetchKey(c.fetchCount) !in c.requests
    requires ResponseSlot(m.id) == Some(c.lastId + 1)
    requires IsDef(m.result) || IsDef(m.error)
    ensures var r := Fetch(c, spec, notify, Some(cbs));
      && (r.1.Ok? <==> !(spec.Num? || spec.Bool?))
      && (r.1.Ok? ==> !IsFetching(r.0, r.1.value))
      && (r.1.Ok? ==> (IsFetching(Engine.DispatchResponse(r.0, m), r.1.value) <==> IsDef(m.result)))
  {
  }

  /** Finding, as written: fetching again through the handle and having the
      daemon reject it leaves the handle fetching. */
  lemma FailedRefetchStillFetching(c: Connection, f: FetchRef, cbs: Callbacks, m: Msg)
    requires !c.closed && Valid(c)
    requires ResponseSlot(m.id) == Some(c.lastId + 1)
    requires !IsDef(m.result) && IsDef(m.error)
    ensures var r := RefetchAsWritten(c, f, Some(cbs));
      && (r.Ok? <==> Engine.Extensible(f.params))
      && (r.Ok? ==> IsFetching(Engine.DispatchResponse(r.value, m), f))
  {
  }

  /** Corrected: after an answered unfetch the handle is not fetching, and
      fetching again through it makes it fetch under the same id, with the
      same dispatcher, exactly when the daemon answers with a result. */
  lemma RefetchingIffRefetchSucceeded(c: Connection, f: FetchRef, cbs1: Callbacks, m1: Msg, cbs2: Callbacks, m2: Msg)
    requires !c.closed && Valid(c)
    requires ResponseSlot(m1.id) == Some(c.lastId + 1) && (IsDef(m1.result) || IsDef(m1.error))
    requires ResponseSlot(m2.id) == Some(c.lastId + 2) && (IsDef(m2.result) || IsDef(m2.error))
    ensures var c1 := Engine.DispatchResponse(Unfetch(c, f, Some(cbs1)).value, m1);
      && !IsFetching(c1, f)
      && var r := Refetch(c1, f, Some(cbs2));
         && (r.Ok? <==> Engine.Extensible(f.params))
         && (r.Ok? ==>
               var c2 := Engine.DispatchResponse(r.value, m2);
               && (IsFetching(c2, f) <==> IsDef(m2.result))
               && (IsFetching(c2, f) ==> c2.requests[f.id] == FetcherOf(f)))
  {
    UnfetchAnswered(c, f, cbs1, m1);
    RefetchAnswered(Engine.DispatchResponse(Unfetch(c, f, Some(cbs1)).value, m1), f, cbs2, m2);
  }

  /** An answered unfetch: not fetching, one id used, still open and valid. */
  lemma UnfetchAnswered(c: Connection, f: FetchRef, cbs: Callbacks, m: Msg)
    requires !c.closed && Valid(c)
    requires ResponseSlot(m.id) == Some(c.lastId + 1) && (IsDef(m.result) || IsDef(m.error))
    ensures var c1 := Engine.DispatchResponse(Unfetch(c, f, Some(cbs)).value, m);
      !IsFetching(c1, f) && c1.lastId == c.lastId + 1 && Valid(c1) && !c1.closed
  {
  }

  /** An answered refetch from a handle that is not fetching: fetching, with
      the fetch's own dispatcher, exactly when the answer was a result. */
  lemma RefetchAnswered(c: Connection, f: FetchRef, cbs: Callbacks, m: Msg)
    requires !c.closed && Valid(c) && !IsFetching(c, f)
    requires ResponseSlot(m.id) == Some(c.lastId + 1) && (IsDef(m.result) || IsDef(m.error))
    ensures var r := Refetch(c, f, Some(cbs));
      && (r.Ok? <==> Engine.Extensible(f.params))
      && (r.Ok? ==>
            var c2 := Engine.DispatchResponse(r.value, m);
            && (IsFetching(c2, f) <==> IsDef(m.result))
            && (IsFetching(c2, f) ==> c2.requests[f.id] == FetcherOf(f)))
  {
  }

  /** Re-adding through a handle, then a result for that add, leaves the
      handle added with its dispatcher and the value the add carried; an
      error leaves it as it was. */
  lemma HandleAddInstallsOnResult(c: Connection, h: Handle, value: Value, cbs: Callbacks, m: Msg)
    requires !c.closed && Valid(c)
    requires !IsAdded(c, h) || cbs.hasSuccess
    requires ResponseSlot(m.id) == Some(c.lastId + 1) && (IsDef(m.result) || IsDef(m.error))
    ensures var c1 := HandleAdd(c, h, value, Some(cbs)).value;
      var c2 := Engine.DispatchResponse(c1, m);
      && CachedValue(c2, h.path) == (if IsDef(value) then value else CachedValue(c, h.path))
      && (IsDef(m.result) ==> IsAdded(c2, h) && c2.requests[h.path] == h.dispatch)
      && (!IsDef(m.result) ==> IsAdded(c2, h) == IsAdded(c, h))
  {
  }

  /** End to end: once a method with a synchronous `call` is added without
      callbacks, an inbound call with an id gets exactly one answer, in the
      cycle's single frame after what was pending: `result || {}`, or the
      mapped exception. */
  lemma MethodCallAnsweredOnce(c: Connection, desc: MethodDesc, m: Msg)
    requires !c.closed && desc.impl.Caller? && desc.path != ""
    requires m.verb == Str(desc.path) && Truthy(m.params) && IsDef(m.id)
    ensures var c1 := Method(c, desc, None).value.0;
      var c2 := Engine.DispatchMessage(c1, Engine.One(m));
      var out := desc.impl.call(Handlers.ArgsOf(m.params));
      var answer :=
        if Handlers.CallSucceeded(out)
        then ResultResponse(m.id, Handlers.CallResult(if out.Returned? then out.v else Undefined))
        else ErrorResponse(m.id, Util.ErrorObject(out.e));
      && Sent(c2.outbox) == Sent(c1.outbox) + c1.pending + [answer]
      && |c2.outbox| == |c1.outbox| + 1
  {
    var c1 := Method(c, desc, None).value.0;
    SyncCallAnsweredInOneFrame(c1, desc.path, desc.impl.call, m);
  }

  /** One inbound call with an id to an installed synchronous method: one
      frame, carrying what was pending and then the method's single answer. */
  lemma SyncCallAnsweredInOneFrame(c: Connection, path: string, call: CallArgs -> Outcome, m: Msg)
    requires path != "" && path in c.requests && c.requests[path] == SyncCall(path, call)
    requires m.verb == Str(path) && Truthy(m.params) && IsDef(m.id)
    ensures var c2 := Engine.DispatchMessage(c, Engine.One(m));
      var out := call(Handlers.ArgsOf(m.params));
      var answer :=
        if Handlers.CallSucceeded(out)
        then ResultResponse(m.id, Handlers.CallResult(if out.Returned? then out.v else Undefined))
        else ErrorResponse(m.id, Util.ErrorObject(out.e));
      && Sent(c2.outbox) == Sent(c.outbox) + c.pending + [answer]
      && |c2.outbox| == |c.outbox| + 1
  {
    var c0 := c.(willFlush := true);
    var d := Engine.DispatchSingle(c0, m);
    assert d == Handlers.RunSyncCall(c0, call, m);
    FlushDeliversPending(d);
  }

  /** An unfetch issued with callbacks stops the fetcher once answered,
      with a result or with an error. */
  lemma UnfetchStopsOnAnswer(c: Connection, f: FetchRef, cbs: Callbacks, m: Msg)
    requires !c.closed && Valid(c)
    requires ResponseSlot(m.id) == Some(c.lastId + 1)
    requires IsDef(m.result) || IsDef(m.error)
    ensures !IsFetching(Engine.DispatchResponse(Unfetch(c, f, Some(cbs)).value, m), f)
  {
  }

  /** Once a fetch is installed, the daemon's notifications addressed to its
      id reach the fetch callback, unsorted ones as `(path, event, value)`;
      an exception the callback throws is answered as an error when the
      notification carried an id, and dropped otherwise. */
  lemma FetcherForwardsNotification(c: Connection, f: FetchRef, m: Msg)
    requires IsFetching(c, f) && c.requests[f.id] == FetcherOf(f)
    requires m.verb == Str(f.id) && Truthy(m.params) && !f.sorted
    ensures var c' := Engine.DispatchRequest(c, m);
      var thrown := f.notify(Unsorted(Get(m.params, "path"), Get(m.params, "event"), Get(m.params, "value")));
      && c'.events == c.events
           + [FetchNotified(f.id, Get(m.params, "path"), Get(m.params, "event"), Get(m.params, "value"))]
      && c'.pending == c.pending
           + (if thrown.Some? && IsDef(m.id) then [ErrorResponse(m.id, Util.ErrorObject(thrown.value))] else [])
  {
  }

  /** End to end: an inbound `set` with an id, for a state whose setter
      returns nothing, is answered in one frame holding `{id, result: true}`
      and then the `change` notification, and the state caches the value. */
  lemma InboundSetAnsweredInOneFrame(c: Connection, path: string, setter: Value -> Outcome, m: Msg)
    requires c.pending == [] && path != ""
    requires path in c.requests && c.requests[path] == SyncSet(path, setter)
    requires m.verb == Str(path) && m.params.Obj? && IsDef(m.id)
    requires setter(Get(m.params, "value")) == Returned(Undefined)
    ensures var c' := Engine.DispatchMessage(c, Engine.One(m));
      && c'.outbox == c.outbox + [Batch([ResultResponse(m.id, Bool(true)), Change(path, Get(m.params, "value"))])]
      && CachedValue(c', path) == Get(m.params, "value")
  {
    var c0 := c.(willFlush := true);
    var d := Engine.DispatchSingle(c0, m);
    assert d == Handlers.RunSyncSet(c0, path, setter, m);
    assert d.pending == [ResultResponse(m.id, Bool(true)), Change(path, Get(m.params, "value"))];
  }
}

=== FILE: scheduler.dfy ===
/** The state one `src/jsonrpc.js` connection owns, and its outbound
    scheduler: `queue` appends to the pending list and `flush` turns the
    pending list into at most one wire frame.

    The socket's `send` is modelled as appending a frame to `outbox`; user
    callbacks are modelled as events appended to `events`. */
module Scheduler {
  import opened JsValues

  /** A protocol message. An absent field is `Undefined`. */
  datatype Msg = Msg(id: Value, verb: Value, params: Value, result: Value, error: Value)

  function Request(id: Value, verb: string, params: Value): Msg {
    Msg(id, Str(verb), params, Undefined, Undefined)
  }

  function ResultResponse(id: Value, result: Value): Msg {
    Msg(id, Undefined, Undefined, result, Undefined)
  }

  function ErrorResponse(id: Value, error: Value): Msg {
    Msg(id, Undefined, Undefined, Undefined, error)
  }

  /** The `change` notification a state sends when its value changes. */
  function Change(path: string, value: Value): Msg {
    Request(Undefined, "change", Obj(map["path" := Str(path), "value" := value]))
  }

  /** What one `send` puts on the wire: a bare message or an array of them. */
  datatype Frame = Single(m: Msg) | Batch(ms: seq<Msg>)

  /** The messages carried by a sequence of frames, in wire order. */
  function Sent(frames: seq<Frame>): seq<Msg> {
    if |frames| == 0 then []
    else
      var last := frames[|frames| - 1];
      Sent(frames[..|frames| - 1]) + (if last.Single? then [last.m] else last.ms)
  }

  lemma SentAppend(frames: seq<Frame>, f: Frame)
    ensures Sent(frames + [f]) == Sent(frames) + (if f.Single? then [f.m] else f.ms)
  {
  }

  // ---------------------------------------------------------------------------
  // Handlers and callbacks

  /** The arguments a method handler receives: spread from a non-empty
      params array, or the params value as the single argument. */
  datatype CallArgs = Spread(args: seq<Value>) | Whole(arg: Value)

  /** What a fetch callback is called with, besides the fetch handle: one
      change as `(path, event, value)`, or a sorted batch as `(changes, n)`. */
  datatype FetchArgs = Unsorted(path: Value, event: Value, value: Value) | Sorted(changes: Value, n: Value)

  /** What a synchronous user handler did: returned a value or threw. */
  datatype Outcome = Returned(v: Value) | Threw(e: Thrown)

  /** The reply continuation an asynchronous handler is given, with what it
      closed over: the request id and, for a state, the requested value. */
  datatype ReplyToken =
    | MethodReply(path: string, mid: Value)
    | StateReply(path: string, mid: Value, requested: Value)

  /** The request dispatchers a connection can hold. User code is a total
      function from its arguments to what it did. */
  datatype Dispatcher =
    | Raw(tag: nat, run: Msg -> Option<Thrown>)
    | SyncSet(path: string, setter: Value -> Outcome)
    | AsyncSet(path: string, asyncSetter: Value -> Option<Thrown>)
    | ReadOnly(path: string)
    | SyncCall(path: string, call: CallArgs -> Outcome)
    | AsyncCall(path: string, asyncCall: CallArgs -> Option<Thrown>)
    | Fetcher(fetchId: string, sorted: bool, notify: FetchArgs -> Option<Thrown>)

  /** The `complete(ok)` bookkeeping `service` runs before a caller's own
      callback: install a dispatcher when `ok`, install it whatever `ok` is,
      or remove one whatever `ok` is. */
  datatype Completion =
    | Assign(key: string, d: Dispatcher)
    | Install(key: string, d: Dispatcher)
    | Uninstall(key: string)

  /** A caller's `{success, error}` object; `tag` names it in events. */
  datatype Callbacks = Callbacks(tag: nat, hasSuccess: bool, hasError: bool)

  /** A correlation-table entry: the caller's callbacks and the completion
      they are wrapped with. */
  datatype Pending = Pending(complete: Option<Completion>, cbs: Callbacks)

  datatype Event =
    | Completed(ok: bool)
    | Succeeded(tag: nat, result: Value)
    | Failed(tag: nat, error: Value)
    | RawDispatched(tag: nat, m: Msg)
    | FetchNotified(fetchId: string, path: Value, event: Value, value: Value)
    | FetchSorted(fetchId: string, changes: Value, n: Value)
    | AwaitingReply(token: ReplyToken)
    | SocketCloseRequested
    | CloseHook
    | ErrorHook(err: Value)

  datatype Connection = Connection(
    pending: seq<Msg>,                     // `messages`
    outbox: seq<Frame>,                    // everything passed to `wsock.send`
    willFlush: bool,
    closed: bool,
    lastId: nat,                           // `id`, the last correlation id handed out
    responses: map<nat, Pending>,          // `responseDispatchers`
    requests: map<string, Dispatcher>,     // `requestDispatchers`
    values: map<string, Value>,            // each registered descriptor's `value`
    fetchCount: nat,                       // `fetchId` of the façade
    events: seq<Event>)

  /** A fresh connection: nothing sent, and `willFlush` set so that nothing
      is sent before the socket opens and flushes. */
  const Initial: Connection :=
    Connection([], [], true, false, 0, map[], map[], map[], 0, [])

  /** No correlation entry carries an id that has not been handed out. */
  predicate Valid(c: Connection) {
    forall k :: k in c.responses ==> 1 <= k <= c.lastId
  }

  function Queue(c: Connection, m: Msg): (c': Connection)
    ensures c'.pending == c.pending + [m]
    ensures c' == c.(pending := c'.pending)
  {
    c.(pending := c.pending + [m])
  }

  /** `flush`: one pending message goes out bare, several go out as one
      array in enqueue order, none sends nothing. */
  function Flush(c: Connection): (c': Connection)
    ensures |c.pending| == 0 ==> c'.outbox == c.outbox
    ensures |c.pending| == 1 ==> c'.outbox == c.outbox + [Single(c.pending[0])]
    ensures |c.pending| > 1 ==> c'.outbox == c.outbox + [Batch(c.pending)]
    ensures c'.pending == [] && !c'.willFlush
    ensures c' == c.(pending := [], outbox := c'.outbox, willFlush := false)
  {
    var out :=
      if |c.pending| == 1 then c.outbox + [Single(c.pending[0])]
      else if |c.pending| > 1 then c.outbox + [Batch(c.pending)]
      else c.outbox;
    c.(pending := [], outbox := out, willFlush := false)
  }

  /** Flushing loses, duplicates and reorders nothing: the wire carries what
      it carried before followed by the pending messages, and at most one
      frame is added. */
  lemma FlushDeliversPending(c: Connection)
    ensures Sent(Flush(c).outbox) == Sent(c.outbox) + c.pending
    ensures |c.outbox| <= |Flush(c).outbox| <= |c.outbox| + 1
    ensures Flush(c).outbox[..|c.outbox|] == c.outbox
  {
  }

  /** Everything handed to the wire so far, followed by what is still
      pending: the order in which the peer has emitted messages. */
  function Delivered(c: Connection): seq<Msg> {
    Sent(c.outbox) + c.pending
  }

  /** Flushing moves messages from the pending list to the wire without
      changing the order in which the peer has emitted them. */
  lemma FlushKeepsDelivered(c: Connection)
    ensures Delivered(Flush(c)) == Delivered(c)
  {
  }

  /** Appending to the pending list appends to what the peer has emitted. */
  lemma QueuedDelivered(c: Connection, c': Connection, extra: seq<Msg>)
    requires c'.outbox == c.outbox && c'.pending == c.pending + extra
    ensures Delivered(c') == Delivered(c) + extra
  {
  }

  /** `c'` differs from `c` at most by messages appended to the pending
      list, cached values and events: nothing was sent, and neither table,
      the id counter nor the flags changed. */
  ghost predicate OnlyQueues(c: Connection, c': Connection) {
    && c'.outbox == c.outbox
    && c'.willFlush == c.willFlush
    && c'.closed == c.closed
    && c'.lastId == c.lastId
    && c'.responses == c.responses
    && c'.requests == c.requests
    && c'.fetchCount == c.fetchCount
    && |c.pending| <= |c'.pending|
    && c'.pending[..|c.pending|] == c.pending
  }

  lemma OnlyQueuesTransitive(c0: Connection, c1: Connection, c2: Connection)
    requires OnlyQueues(c0, c1) && OnlyQueues(c1, c2)
    ensures OnlyQueues(c0, c2)
  {
  }

  /** Flushing twice sends nothing more than flushing once. */
  lemma FlushIdempotent(c: Connection)
    ensures Flush(Flush(c)) == Flush(c)
  {
  }
}

=== FILE: util.dfy ===
/** The error mapper of `src/util.js`: it turns whatever a handler threw into
    the `{code, message, data}` table sent back in an error response. */
module Util {
  import opened JsValues

  /** The code the mapper gives every error it has to wrap. JSON-RPC 2.0
      reserves -32603 for internal errors; this code base reuses the
      Invalid-params code -32602, and the peer's tests expect it. */
  const WrapCode: int := -32602
  const InvalidParamsCode: int := -32602

  /** The error table `{code, message, data}`. */
  function ErrorTable(code: int, message: string, data: Value): Value {
    Obj(map["code" := Num(code), "message" := Str(message), "data" := data])
  }

  /** `invalidParams(data)` */
  function InvalidParams(data: Value): (r: Value)
    ensures r.Obj? && r.fields.Keys == {"code", "message", "data"}
    ensures Get(r, "code") == Num(-32602)
    ensures Get(r, "message") == Str("Invalid params")
    ensures Get(r, "data") == data
  {
    ErrorTable(InvalidParamsCode, "Invalid params", data)
  }

  /** A thrown value the mapper passes through unchanged: an object with a
      defined `code` and a defined `message`. */
  predicate IsErrorShaped(v: Value) {
    IsObjectTyped(v) && HasProperties(v) && IsDef(Get(v, "code")) && IsDef(Get(v, "message"))
  }

  /** `errorObject(err)`. The source reads `err.code` whenever `typeof err`
      is `'object'`, which throws for `null`; hence the precondition. */
  function ErrorObject(err: Value): (r: Value)
    requires !err.Null?
    ensures IsErrorShaped(r)
    ensures IsErrorShaped(err) ==> r == err
    ensures !IsErrorShaped(err) ==>
      && r.Obj? && r.fields.Keys == {"code", "message", "data"}
      && Get(r, "code") == Num(-32602)
      && Get(r, "message") == Str("Internal error")
    ensures !IsErrorShaped(err) && IsObjectTyped(err) ==>
      Get(r, "data") == Obj(map["message" := Get(err, "message"),
                                "lineNumber" := Get(err, "lineNumber"),
                                "fileName" := Get(err, "fileName")])
    ensures !IsObjectTyped(err) ==> Get(r, "data") == err
  {
    if IsObjectTyped(err) && IsDef(Get(err, "code")) && IsDef(Get(err, "message")) then
      err
    else
      var data :=
        if IsObjectTyped(err) then
          Obj(map["message" := Get(err, "message"),
                  "lineNumber" := Get(err, "lineNumber"),
                  "fileName" := Get(err, "fileName")])
        else Undefined;
      ErrorTable(WrapCode, "Internal error", if Truthy(data) then data else err)
  }

  /** Mapping an already mapped error changes nothing, because the mapper's
      output always carries a defined code and message. */
  lemma ErrorObjectIdempotent(err: Value)
    requires !err.Null?
    ensures ErrorObject(ErrorObject(err)) == ErrorObject(err)
  {
  }

  /** An Invalid-params table passes through the mapper untouched, so a
      handler may throw one to choose its own error response. */
  lemma InvalidParamsPassesThrough(data: Value)
    ensures ErrorObject(InvalidParams(data)) == InvalidParams(data)
  {
  }

  /** The mapper cannot tell a wrapped internal failure from an Invalid-params
      error by code: both carry -32602; only the message differs. */
  lemma WrappedAndInvalidParamsShareCode(err: Value, data: Value)
    requires !err.Null? && !IsErrorShaped(err)
    ensures Get(ErrorObject(err), "code") == Get(InvalidParams(data), "code")
    ensures Get(ErrorObject(err), "message") != Get(InvalidParams(data), "message")
  {
  }
}
